=== FILE: README.md ===
# aws-resource, modelled in Dafny

`aws-resource` is a command-line tool that lists and deletes AWS resources
(EC2 instances, AMIs, EBS snapshots, Route 53 hosted zones) across the
regions of an account, and that can wait for an organisation role to become
assumable. Almost all of it is glue around the AWS SDK. This project models
the decision logic under that glue: the client builder, and the commands
`delete snapshots`, `assume-role`, `delete ec2`, `list ec2`, `list images`,
`list snapshots`, `delete images` and `delete route53`.

Every remote call is an input of the model:
- A call that answers once is a `Result` (or an `Option<Error>` when only
  the error matters).
- A paged call is a `Pages` stream of `Last`, `More` and `Broken` pages.
- The per-region answers are records with one field per call the region
  loop makes.
- The AssumeRole retries get their answers from a function of the attempt
  number.

A Go `error` is an `Errors.Error`: an AWS error with a code, a plain message,
or a message wrapped around a cause. How a command ends is a `Termination`:
- `Returned(err)`: `RunE` returned with that error, or `Run` finished.
- `Exited(code)`: `os.Exit` was called.
- `Crashed`: the code dereferences a nil result.

Modules, one per source file plus shared ones:
- `Wrappers`, `Errors`, `Seqs`: shared datatypes and sequence facts.
- `Paging`: the SDK page loop as the commands drive it.
- `Aws`: pkg/aws/client.go.
- `AmiId`: the image-id pattern of cmd/del/snapshots/cmd.go.
- `DeleteSnapshots`: the rest of cmd/del/snapshots/cmd.go.
- `Ec2`: the instance records and the running filter that both EC2 commands share.
- `AssumeRole`, `DeleteEc2`, `ListEc2`, `ListImages`, `ListSnapshots`,
  `DeleteImages`, `DeleteRoute53`: one per command.

Several behaviours of the code are surprising. The model reproduces them and proves each one:
- `parseTags` returns an empty list for every input (`ListSnapshots.ParseTags`).
- A dry run of `delete ec2` reports a count mismatch in every region that has
  running instances (`DeleteEc2.Region`).
- The result of every `deleteSnapshot` is ignored by `run`
  (`DeleteSnapshots.RunIgnoresDeleteResults`).
- The image deleter stops at the first failure
  (`DeleteImages.FirstFailureStops`, `DeleteImages.FailureEndsSweep`). The
  hosted-zone deleter carries on past failures
  (`DeleteRoute53.FailuresDoNotStop`).
- `list images` never clears its snapshot list, so each region prints the
  snapshots of every earlier region as well as its own
  (`ListImages.ReportsAccumulate`).
- The `--role-arn` flag of `assume-role` has no effect: `AssumeRole.Run`
  agrees with a reference outcome that does not take the flag.
- When `delete snapshots --delete-backing-image` runs `delete images` for an
  in-use snapshot, that run returns nil even if the deregistration fails, so
  the snapshot delete is retried anyway (`DeleteSnapshots.ImageAnswerIgnored`).
- `delete snapshots` never registers a `--snapshot-id` flag
  (cmd/del/snapshots/cmd.go:160-168). Its snapshot-id branch
  (lines 115-134) cannot be reached from the command line. The model keeps
  the branch, as the code does.

Three cases crash on a nil result. The model records them as `Crashed`:
- `delete ec2` outside dry-run, when TerminateInstances fails: its nil output
  is read.
- `list ec2`, when DescribeInstances fails: the client wrapper returns a nil
  result on error, and that result is read.
- `delete snapshots --all-regions`, when a region's client cannot be built:
  the error is only logged, and the nil client is then used.

The id extraction does not match a plain reading of its pattern. The pattern
`.*(ami-[0-9a-z]{17}).*` is often read as "the candidate id that starts
rightmost". Under Go's `regexp`, `.` does not match a line break. The match
therefore starts on the first line that holds a candidate, and the capture
is the rightmost candidate of that line. The model follows the code:
- `AmiId.OneLineCapturesRightmost` proves the "rightmost" reading for
  one-line messages.
- `AmiId.FirstLineWins` shows a two-line message where an earlier candidate
  is captured.

## Model

| member | source | states |
|---|---|---|
| Aws.WithLogger | pkg/aws/client.go:59-62 | the logger setter replaces the logger and leaves every other builder field as it was |
| Aws.WithProfile | pkg/aws/client.go:64-67 | the profile setter stores the given profile and leaves every other field as it was |
| Aws.WithRegion | pkg/aws/client.go:69-72 | the region setter stores the given region and leaves every other field as it was |
| Aws.WithRoleArn | pkg/aws/client.go:74-77 | the role setter stores the given role ARN and leaves every other field as it was |
| Aws.EffectiveRegion | pkg/aws/client.go:124-127 | an unset or empty region becomes "us-east-1"; a non-empty region is kept |
| Aws.Build | pkg/aws/client.go:115-166 | no logger: an error and no session request. Otherwise every session is requested in the effective region. The last request decides: the named profile when one is set, else the shared config. A second request happens iff static credentials are stored. A failing session is returned as the error. On success all six service clients sit on that session, with assumed-role credentials iff the role ARN is non-empty |
| Aws.StaticCredentialsNeverDecide | pkg/aws/client.go:130-137 | the client built does not depend on the stored static credentials |
| Aws.EmptyIsUnset | pkg/aws/client.go:124-155 | an empty region, profile or role ARN builds exactly what an unset one builds |
| Aws.DefaultRegionIsExplicitRegion | pkg/aws/client.go:124-127 | naming "us-east-1" builds the same client as naming no region |
| Aws.Forward | pkg/aws/client.go:178-391 | a wrapper method passes a success and an AWS error through unchanged. Another error is wrapped once, in the call's own message ("describe snpshots failed, " for DescribeSnapshots, as the source spells it, "describe snapshots failed, " for the paged describe and DeleteSnapshot, "describe images failed, " and "deregister images failed, "), and returned unchanged by the other calls. The root cause is always kept |
| Aws.SnapshotsWrapInstancesForward | pkg/aws/client.go:178-287 | the snapshot calls change a non-AWS error and DescribeInstances returns it unchanged; both return a success untouched |
| Paging.Collect | cmd/list/snapshots/cmd.go:93-97 | the page loop reports exactly the failure that ends the stream and never loses items appended before |
| Paging.CollectIsFlatten | cmd/list/snapshots/cmd.go:93-97 | the page loop appends the delivered pages' items in page order, stopping after the last page or at the first failure |
| Paging.DrainIsFlatten | cmd/del/snapshots/cmd.go:244-253 | draining from empty yields the delivered pages concatenated, and the stream's failure |
| Paging.ThreePages | cmd/del/snapshots/cmd.go:245-248 | three pages of two, two and one items yield the five items in order |
| AmiId.FirstAmi | cmd/del/snapshots/cmd.go:171-172 | the leftmost candidate id at or after a position, or none when no candidate is there |
| AmiId.LastOnLine | cmd/del/snapshots/cmd.go:171-172 | the greedy `.*` scan ends on the rightmost candidate of the line, since every later candidate is on a later line |
| AmiId.ParseImageId | cmd/del/snapshots/cmd.go:170-177 | succeeds iff the message holds `ami-` followed by 17 characters of [0-9a-z]. The result is a 21-character id at the position the regular expression captures. Failure gives the "Unexpected number" error |
| AmiId.CaptureIsUnique | cmd/del/snapshots/cmd.go:171-172 | at most one position of a message is the capture |
| AmiId.CandidatesApart | cmd/del/snapshots/cmd.go:171 | two candidate ids are at least 18 characters apart |
| AmiId.SoleCandidate | cmd/del/snapshots/cmd.go:170-177 | a message with exactly one candidate yields that candidate |
| AmiId.OneLineCapturesRightmost | cmd/del/snapshots/cmd.go:171-172 | in a one-line message the captured id is the candidate with the rightmost start |
| AmiId.InUseScenario | cmd/del/snapshots/cmd.go:189-191 | an in-use message naming one image yields that image's id |
| AmiId.FirstLineWins | cmd/del/snapshots/cmd.go:171-172 | a candidate on the first line beats a later-starting candidate on the second line |
| DeleteSnapshots.DeleteSnapshot | cmd/del/snapshots/cmd.go:179-235 | one delete call comes first. Success and DryRunOperation return nil. Any other error is returned unchanged. In use without an id: the parse error. In use without the force flag: nil. With the force flag, `delete images` runs for the named image. If its client build or DescribeRegions fails, that error is returned and nothing else happens. Otherwise the image is deregistered with the same dry-run value, and the answer is dropped. The same delete is then retried exactly once and its failure returned wrapped |
| DeleteSnapshots.OnlyForceReachesImages | cmd/del/snapshots/cmd.go:186-218 | more than one call happens iff the force flag meets an in-use error that names an image and the nested run gets past its client build and DescribeRegions. Exactly three calls happen under the same condition |
| DeleteSnapshots.ImageAnswerIgnored | cmd/del/snapshots/cmd.go:208-216 | the nested `delete images` run returns nil whatever DeregisterImage answers, so that answer never changes what `deleteSnapshot` returns or calls |
| DeleteSnapshots.InUseForcedRetryFails | cmd/del/snapshots/cmd.go:196-216 | an in-use snapshot whose forced retry fails makes the delete, image and delete calls and returns the wrapped retry error, whatever the deregistration answered |
| DeleteSnapshots.DescribeSnapshots | cmd/del/snapshots/cmd.go:237-254 | all pages' snapshots in order when paging succeeds, otherwise the paging error and no snapshots |
| DeleteSnapshots.DeleteEach | cmd/del/snapshots/cmd.go:102-110 | the calls are each snapshot's `deleteSnapshot` calls, concatenated in snapshot order: one to three per snapshot |
| DeleteSnapshots.DeleteEachAppend | cmd/del/snapshots/cmd.go:101-110 | deleting two runs of snapshots one after the other makes both runs' calls, in order |
| DeleteSnapshots.AllRegions | cmd/del/snapshots/cmd.go:84-111 | the loop ends normally iff every region's client builds and its paging succeeds. At the first region that fails, it crashes on a client error and otherwise returns exactly that region's paging error. The snapshots found are those of the regions before it, in region order. Every snapshot found is handed to `deleteSnapshot` once, in order |
| DeleteSnapshots.Run | cmd/del/snapshots/cmd.go:54-158 | a build error is returned before anything is described, and so is a DescribeRegions failure. The all-regions loop stops at its first failing region with that region's crash or error, having found the snapshots of the regions before it. When every region passes, or the regions are not swept, the snapshot-id lookup decides the end: its error is returned, or the run returns nil having found every region's snapshots followed by the id's. The configured-region branch ends as its describe does, with the region's snapshots. Outside that branch the calls are exactly the deletions of the snapshots found, in order. A run that returns nil reports "No snapshots found" iff it found none |
| DeleteSnapshots.SingleRegionOnlyDescribes | cmd/del/snapshots/cmd.go:138-145 | the configured-region branch deletes nothing and lists the region's pages in order |
| DeleteSnapshots.AllRegionsIgnoresAnswers | cmd/del/snapshots/cmd.go:102-110 | how the region loop ends, and what it finds, does not depend on the delete answers |
| DeleteSnapshots.RunIgnoresDeleteResults | cmd/del/snapshots/cmd.go:102-132 | a run ends the same way and finds the same snapshots, whatever the deletions answer |
| AssumeRole.FirstSuccess | cmd/assume-role/cmd.go:97-102 | the index of the first successful answer in a range, with every earlier answer failing |
| AssumeRole.WaitForRole | cmd/assume-role/cmd.go:94-106 | between 1 and 100 attempts, stopping at the first success, so the count is that index plus one. The result is the last attempt's answer. The timeout is flagged iff all 100 attempts failed. Each attempt sends the given request once |
| AssumeRole.Export | cmd/assume-role/cmd.go:124-138 | the three variables hold the access key, the secret key and the session token, and no other variable changes |
| AssumeRole.Expected | cmd/assume-role/cmd.go:56-157 | a failing build or identity call exits 1 before any attempt. Otherwise there is one 500 ms sleep per attempt. Each attempt sends one request, for OrganizationAccountAccessRole, 3600 seconds, session name awsResourceCLI. If every attempt fails, the command exits 1 before the environment changes. After a success the credentials are exported |
| AssumeRole.Run | cmd/assume-role/cmd.go:56-157 | the retry loop's outcome, the requests it sends included, is the reference outcome, which does not take the `--role-arn` value: the flag has no effect |
| Ec2.InstancesOfMembers | cmd/del/ec2/cmd.go:88-93 | an instance is collected iff it belongs to one of the reservations |
| Ec2.InstancesOfAppend | cmd/del/ec2/cmd.go:88-93 | collecting from two runs of reservations is collecting from each, in order |
| Ec2.RunningOnly | cmd/del/ec2/cmd.go:98-103 | the running list holds exactly the instances in state "running" |
| Ec2.RunningOnlyAppend | cmd/del/ec2/cmd.go:98-103 | the running filter keeps order: it distributes over concatenation |
| Ec2.InstanceIds | cmd/del/ec2/cmd.go:107-110 | one id per running instance, in the same order |
| DeleteEc2.Region | cmd/del/ec2/cmd.go:69-128 | `terminateInstances` (lines 137-149) is inlined. A client error is returned. A region without running instances lets the loop go on. Otherwise the instances of the pages read are filtered to the running ones, and a terminate call is made iff there are any, with their ids. Under dry-run a region with running instances always mismatches. Outside dry-run a failed terminate crashes, and a successful one mismatches iff the counts differ |
| DeleteEc2.FirstStop | cmd/del/ec2/cmd.go:67-129 | the index of the first region that stops the loop: every earlier region lets it go on, and that one stops it |
| DeleteEc2.Regions | cmd/del/ec2/cmd.go:67-129 | the first region that stops the loop decides its end. The calls and the mismatching region names are exactly those of the regions reached, in order, and running instances were seen iff one of those regions had some. Running instances were seen iff a terminate call was made. There is at most one call per region. Under dry-run every call is a mismatch. Every call carries the flag and a non-empty id list |
| DeleteEc2.Run | cmd/del/ec2/cmd.go:43-135 | build and region errors are returned with no call made. Once the regions are described, the region loop's reference decides the end, the calls and the mismatches. "No running instances found" is reported iff every region is reached and none had a running instance |
| DeleteEc2.PagingErrorKeepsEarlierPages | cmd/del/ec2/cmd.go:88-96 | a paging error is only logged: the running instances of the pages read before it are still terminated |
| ListEc2.FindNameTag | cmd/list/ec2/cmd.go:105-109 | the index of the first tag keyed exactly "Name", or none when no tag has that key |
| ListEc2.GetInstanceName | cmd/list/ec2/cmd.go:101-111 | "Instance has no tags" for no tags; the first "Name" tag's value when there is one; otherwise the no-Name note |
| ListEc2.OtherTagFirst | cmd/list/ec2/cmd.go:105-109 | a tag with another key in front does not change the name |
| ListEc2.FirstNameTagWins | cmd/list/ec2/cmd.go:105-109 | of two "Name" tags the first one's value is the name |
| ListEc2.NamesOf | cmd/list/ec2/cmd.go:86-88 | one name per instance, in order |
| ListEc2.ListInstances | cmd/list/ec2/cmd.go:82-90 | the inner loop counts the running instances; it collects their names in order iff the flag is set |
| ListEc2.ListRegion | cmd/list/ec2/cmd.go:78-91 | the region count is the number of running instances over all reservations; the names, one per running instance, are collected only when the flag is set |
| ListEc2.ListRegions | cmd/list/ec2/cmd.go:60-97 | each report is the reference report of its region. The loop completes iff every region's client builds and its describe succeeds. It exits 1 at the first client error and crashes at the first failed describe |
| ListEc2.Run | cmd/list/ec2/cmd.go:39-98 | a build or region failure exits 1 with nothing printed. Otherwise each report matches its region, in order. The run ends normally iff every region is fine, and then every region is reported. Otherwise the first bad region ends it: exit 1 on its client error, a crash on its failed describe. Names are printed for a region iff the flag is set and it has running instances |
| ListImages.FoldMappings | cmd/list/images/cmd.go:120-126 | the mapping loop adds one snapshot id per qualifying mapping, and the image once per qualifying mapping to both snapshot-backed lists |
| ListImages.FoldImages | cmd/list/images/cmd.go:119-129 | the image list grows by exactly one entry per image of the region |
| ListImages.FoldImagesIsReference | cmd/list/images/cmd.go:119-129 | the image loop appends the images in order, their snapshot ids in image-then-mapping order, and each image once per qualifying mapping |
| ListImages.TwoMappingsTwoEntries | cmd/list/images/cmd.go:120-125 | an image with two snapshot-backed mappings is listed twice as snapshot backed |
| ListImages.UnbackedMappingsIgnored | cmd/list/images/cmd.go:119-128 | mappings without EBS or without a snapshot id add nothing but the image itself |
| ListImages.ListAllImages | cmd/list/images/cmd.go:84-143 | the traversal returns nil iff every region's client builds and DescribeImages succeeds. At the first region that fails, it exits 1 on a client error and otherwise returns exactly that region's describe error. The images described are those of the regions before it, in region order. The lists grow by exactly those images |
| ListImages.ReportsAccumulate | cmd/list/images/cmd.go:119-138 | each report belongs to a region reached with images. It names that region and prints its image count twice. Its snapshot list holds the snapshots of every region up to and including its own, in order |
| ListImages.ReportsInOrder | cmd/list/images/cmd.go:90-138 | reports come in region order, at most one per region |
| ListImages.BackedListsAgree | cmd/list/images/cmd.go:87-124 | the per-region and all-regions snapshot-backed lists are always equal, since neither is reset |
| ListImages.Run | cmd/list/images/cmd.go:44-75 | build and region errors are returned. Otherwise the traversal's own error is returned. When nil is returned, every image and every snapshot id of every region has been collected |
| ListSnapshots.RangeEntries | cmd/list/snapshots/cmd.go:143-145 | the loop makes one entry per element it ranges over |
| ListSnapshots.ParseTags | cmd/list/snapshots/cmd.go:141-147 | the result is empty for every tag list, since the loop ranges over the empty accumulator |
| ListSnapshots.DetailLine | cmd/list/snapshots/cmd.go:104-116 | a line is printed iff the id or the start-time flag is set; it has one field per such flag, the id first and the start time last |
| ListSnapshots.TagsFlagHasNoEffect | cmd/list/snapshots/cmd.go:112-114 | the tags flag never changes a detail line |
| ListSnapshots.DetailsOf | cmd/list/snapshots/cmd.go:102-117 | one detail line per snapshot, in order, when a detail flag is set; none otherwise |
| ListSnapshots.ListRegions | cmd/list/snapshots/cmd.go:71-122 | the loop returns nil iff every region passes. At the first region that does not, it exits 1 on a client error and otherwise returns that region's paging error wrapped in "Unable to describe snapshots". The snapshots listed are those of the regions before it, in order. There is one count line per such region holding snapshots, with its name and count. The detail lines are those of the listed snapshots |
| ListSnapshots.ListRegionsIsReference | cmd/list/snapshots/cmd.go:93-103 | the loop returns nil iff no client fails and no paging fails; it then lists every region's snapshots in region order |
| ListSnapshots.Run | cmd/list/snapshots/cmd.go:47-130 | the build and region messages are returned as errors. When nil is returned, all snapshots are listed and "No snapshots found" is printed iff there are none |
| ListSnapshots.SecondPageFailureAborts | cmd/list/snapshots/cmd.go:94-100 | a failing second page aborts the run with the wrapped error, even after the first page was read |
| DeleteImages.DeleteImageId | cmd/del/images/cmd.go:94-107 | one DeregisterImage call with the id and the dry-run value; success gives no error, a failure is returned wrapped around the same cause |
| DeleteImages.CallsFor | cmd/del/images/cmd.go:139-146 | one deregister call per id, in order, with the same dry-run value |
| DeleteImages.DeregisterEach | cmd/del/images/cmd.go:139-154 | the image loop makes the planned calls in order up to and including the first failure. It returns no error iff every image was deregistered. An error is the failing call's, wrapped |
| DeleteImages.DeleteAllImages | cmd/del/images/cmd.go:109-163 | the calls made are a prefix of the plan, every self-owned image of every region in order, and only a run with no failure makes them all. The first region that is not clean decides the end. A client error exits. A describe failure returns that error, wrapped. A failed deregistration returns its error, wrapped, after that region's calls up to it. In every case the calls are the plan of the earlier regions and nothing after |
| DeleteImages.FailureEndsSweep | cmd/del/images/cmd.go:111-149 | a sweep that exits or fails ends there: regions added after it change nothing |
| DeleteImages.FirstFailureStops | cmd/del/images/cmd.go:139-149 | when the j-th image of the first region is the first whose deregistration fails, the sweep returns that error wrapped. It calls exactly the first j+1 images and no later region. A failure in a later region is covered by `DeleteImages.DeleteAllImages`' end predicate `EndsAt` |
| DeleteImages.Run | cmd/del/images/cmd.go:46-84 | build and region errors come back as messages. With an image id only that image is deregistered and nil is returned. Without one, the all-images sweep runs: it exits 1 iff the first region that is not clean could not build its client, and otherwise returns nil |
| DeleteImages.RunIgnoresDeletionErrors | cmd/del/images/cmd.go:62-83 | once the regions are described the command returns nil or exits 1, whatever the deletions did; when every region's client builds it returns nil |
| DeleteRoute53.DeleteHostedZoneId | cmd/del/route53/cmd.go:66-78 | success gives no error, a failure is returned wrapped around the same cause |
| DeleteRoute53.DeleteEach | cmd/del/route53/cmd.go:91-96 | every listed zone is tried in order; exactly the zones whose delete failed are recorded as failed |
| DeleteRoute53.DeleteAllHostedZones | cmd/del/route53/cmd.go:80-98 | a listing failure is returned and nothing is deleted; otherwise every zone is tried and nil is returned |
| DeleteRoute53.FailuresDoNotStop | cmd/del/route53/cmd.go:91-96 | the zones tried and the error returned do not depend on the delete answers |
| DeleteRoute53.Run | cmd/del/route53/cmd.go:25-58 | a build error is returned. With a zone id exactly that zone is deleted; without one, the listed zones are. Nil is returned either way |

## Left out

- The AWS SDK: session construction, the credential chain, the retryer and every service call. Each one is an input: a given answer, page stream or session result.
- Reporter and logger output text, and `fmt.Printf`. Only the facts the output depends on are modelled: counts, name lists, detail fields, and whether a "none found" line is printed.
- `time.Sleep` is counted in milliseconds, not performed.
- The `os.Setenv` calls of `assume-role` are modelled as succeeding. Their errors are only logged.
- The error wrapping of the client's wrapper methods is modelled once, in `Aws.Forward`. The commands receive errors already forwarded.
- `reporter.Errorf` and `fmt.Errorf` are modelled as a plain or wrapped error carrying the constant part of the message. The formatting of the cause and the region name are left out.
- The region name passed to each regional client build, and to each regional call, is not modelled. Each region record holds the answers for that region.
- A snapshot's `StartTime` is given as its rendered string.
- The nested image deletion in `delete snapshots` is a direct call of `DeleteImages.Run` with the parsed id and the dry-run value. The source sets the `image-id` and `dry-run` flags of the `delete images` command and runs it, and those flag errors are only logged.
- cmd/del/elb/cmd.go does not compile and is not part of this model.
- Four client methods are called but not declared by the `Client` interface (pkg/aws/client.go:32-45): `AssumeRole` (cmd/assume-role/cmd.go:99), `DescribeInstancesPages` (cmd/del/ec2/cmd.go:88), `TerminateInstances` (cmd/del/ec2/cmd.go:143) and `DeleteHostedZonesByName` (cmd/del/route53/cmd.go:72). As written those commands do not build. The model takes these four answers as given, with no wrapping of foreign errors (no `Aws.Forward` case). The crash on a nil `TerminateInstances` output in `delete ec2` rests on that.
- The counting-only commands (list elb, list elbv2, list volumes, list route53, list all, whoami) and the Cobra command tree are not part of this model.
- `ListEc2.Run`: the command has no return value. Its normal end is modelled as `Returned(None)`.
- Aws.Build: when the region is unset or empty, the source also writes "us-east-1" back into the builder (pkg/aws/client.go:124-127). The model returns only the client, because no command reuses a builder after `Build`.

=== FILE: ami_id.dfy ===
/**
 * `parseInUseSnapshotImageIdErr` of cmd/del/snapshots/cmd.go: the first
 * submatch of Go's `regexp` pattern `.*(ami-[0-9a-z]{17}).*` in an error
 * message. Only this one pattern is modelled, at the level of characters.
 *
 * Go's `.` does not match a line break, and the match is leftmost-first with
 * a greedy leading `.*`. The match therefore starts at the beginning of the
 * first line that holds a candidate id, and the captured id is the candidate
 * on that line with the rightmost start.
 */
module AmiId {
  import opened Wrappers
  import opened Errors

  const Prefix: string := "ami-"

  /** Length of `ami-` plus 17 characters from [0-9a-z]. */
  const IdLength: nat := 21

  /** Message of the error returned when the message holds no image id. */
  const NoImageId: string := "Unexpected number of in use Image ID's for snapshot: []"

  predicate IsIdChar(c: char) {
    '0' <= c <= '9' || 'a' <= c <= 'z'
  }

  /** The string is an image id of the shape the pattern captures. */
  predicate IsImageId(id: string) {
    |id| == IdLength && id[..4] == Prefix && forall k | 4 <= k < IdLength :: IsIdChar(id[k])
  }

  /** A candidate image id starts at position `q` of `s`. */
  predicate AmiAt(s: string, q: nat) {
    q + IdLength <= |s| && IsImageId(s[q..q + IdLength])
  }

  /** No line break in `s[a..b]`, so `.*` can cross from `a` to `b`. */
  predicate SameLine(s: string, a: nat, b: nat)
    requires a <= b <= |s|
  {
    forall k | a <= k < b :: s[k] != '\n'
  }

  /**
   * The regular-expression semantics, stated directly: the candidate at `q` is
   * the one captured when every earlier candidate lies on q's line (so that
   * line is the first with a candidate) and every later candidate lies on a
   * later line (so q is rightmost on its line).
   */
  ghost predicate IsCapture(s: string, q: nat) {
    && AmiAt(s, q)
    && (forall p: nat | p < q && AmiAt(s, p) :: SameLine(s, p, q))
    && (forall p: nat | q < p && AmiAt(s, p) :: !SameLine(s, q, p))
  }

  /** The first candidate at or after `i`. */
  function FirstAmi(s: string, i: nat): (r: Option<nat>)
    decreases |s| - i
    ensures r.Some? ==> i <= r.value && AmiAt(s, r.value)
    ensures r.Some? ==> forall p: nat | i <= p < r.value :: !AmiAt(s, p)
    ensures r.None? ==> forall p: nat | i <= p :: !AmiAt(s, p)
  {
    if i + IdLength > |s| then None
    else if AmiAt(s, i) then Some(i)
    else FirstAmi(s, i + 1)
  }

  lemma AmiStartsWithA(s: string, q: nat)
    ensures AmiAt(s, q) ==> q < |s| && s[q] == 'a'
  {
    if AmiAt(s, q) {
      assert s[q..q + IdLength][0] == 'a';
    }
  }

  /**
   * The greedy scan: `best` is the rightmost candidate seen so far on the
   * line, and `s[best..i]` has been read without meeting a line break.
   */
  function LastOnLine(s: string, i: nat, best: nat): (r: nat)
    requires AmiAt(s, best) && best < i <= |s| && SameLine(s, best, i)
    requires forall p: nat | best < p < i :: !AmiAt(s, p)
    decreases |s| - i
    ensures AmiAt(s, r) && best <= r && SameLine(s, best, r)
    ensures forall p: nat | r < p && AmiAt(s, p) :: !SameLine(s, r, p)
  {
    var best' := if AmiAt(s, i) then i else best;
    AmiStartsWithA(s, i);
    if i == |s| || s[i] == '\n' then best'
    else LastOnLine(s, i + 1, best')
  }

  /** `parseInUseSnapshotImageIdErr`: the captured id, or an error when there is none. */
  function ParseImageId(msg: string): (r: Result<string, Error>)
    ensures r.Success? <==> exists q: nat :: AmiAt(msg, q)
    ensures r.Success? ==> IsImageId(r.value)
    ensures r.Success? ==> exists q: nat :: IsCapture(msg, q) && r.value == msg[q..q + IdLength]
    ensures r.Failure? ==> r.error == Plain(NoImageId)
  {
    match FirstAmi(msg, 0)
    case None => Failure(Plain(NoImageId))
    case Some(q0) =>
      AmiStartsWithA(msg, q0);
      var q := LastOnLine(msg, q0 + 1, q0);
      assert IsCapture(msg, q) by {
        forall p: nat | p < q && AmiAt(msg, p)
          ensures SameLine(msg, p, q)
        {
          assert q0 <= p;
        }
      }
      Success(msg[q..q + IdLength])
  }

  /** At most one candidate of a message is the capture. */
  lemma CaptureIsUnique(s: string, q1: nat, q2: nat)
    requires IsCapture(s, q1) && IsCapture(s, q2)
    ensures q1 == q2
  {
  }

  /** Two candidates overlap in no character of the id after the dash. */
  lemma CandidatesApart(s: string, p: nat, q: nat)
    requires AmiAt(s, p) && AmiAt(s, q) && p < q
    ensures p + 18 <= q
  {
    assert s[q + 3] == s[q..q + IdLength][3] == '-';
    assert forall k | p + 4 <= k < p + IdLength :: IsIdChar(s[k]) by {
      forall k | p + 4 <= k < p + IdLength
        ensures IsIdChar(s[k])
      {
        assert s[k] == s[p..p + IdLength][k - p];
      }
    }
  }

  /** A message naming exactly one candidate yields that candidate. */
  lemma SoleCandidate(s: string, q: nat)
    requires AmiAt(s, q)
    requires forall p: nat | p != q :: !AmiAt(s, p)
    ensures ParseImageId(s) == Success(s[q..q + IdLength])
  {
    var r := ParseImageId(s);
    assert r.Success?;
    var q': nat :| IsCapture(s, q') && r.value == s[q'..q' + IdLength];
    assert q' == q;
  }

  /** In a message of one line the captured id is the candidate with the rightmost start. */
  lemma OneLineCapturesRightmost(msg: string)
    requires '\n' !in msg
    requires exists q: nat :: AmiAt(msg, q)
    ensures exists q: nat ::
              && AmiAt(msg, q)
              && ParseImageId(msg) == Success(msg[q..q + IdLength])
              && forall p: nat | AmiAt(msg, p) :: p <= q
  {
    assert forall a: nat, b: nat | a <= b <= |msg| :: SameLine(msg, a, b) by {
      forall a: nat, b: nat | a <= b <= |msg|
        ensures SameLine(msg, a, b)
      {
        forall k | a <= k < b
          ensures msg[k] != '\n'
        {
          assert msg[k] in msg;
        }
      }
    }
    var r := ParseImageId(msg);
    assert r.Success?;
    var q: nat :| IsCapture(msg, q) && r.value == msg[q..q + IdLength];
  }

  /** A message in which snapshot deletion meets an image in use. */
  const InUseImage: string := "ami-01234567890abcdef"
  const InUseMessage: string := "in use by " + InUseImage

  lemma InUseImageIsId()
    ensures IsImageId(InUseImage)
  {
  }

  /** The scenario message holds exactly one candidate, at position 10. */
  lemma InUseCandidates()
    ensures AmiAt(InUseMessage, 10)
    ensures forall p: nat | p != 10 :: !AmiAt(InUseMessage, p)
  {
    var s := InUseMessage;
    var lead := "in use by ";
    assert s[..10] == lead && s[10..31] == InUseImage;
    InUseImageIsId();
    assert 'a' !in lead;
    forall p: nat | p < 10
      ensures !AmiAt(s, p)
    {
      AmiStartsWithA(s, p);
      assert s[p] in s[..10];
    }
  }

  lemma InUseScenario()
    ensures ParseImageId(InUseMessage) == Success(InUseImage)
  {
    InUseCandidates();
    SoleCandidate(InUseMessage, 10);
    assert InUseMessage[10..31] == InUseImage;
  }

  /** A candidate on a later line loses to one on the first line, although it starts later. */
  lemma FirstLineWins()
    ensures ParseImageId("ami-0000000000000000a\nami-0000000000000000b") == Success("ami-0000000000000000a")
  {
    var s := "ami-0000000000000000a\nami-0000000000000000b";
    assert s[..21] == "ami-0000000000000000a";
    assert IsImageId(s[..21]);
    assert AmiAt(s, 0);
    assert s[21] == '\n';
    forall q: nat | 18 <= q <= 21
      ensures !AmiAt(s, q)
    {
      assert s[q + 3] != '-';
      assert s[q..q + IdLength][3] == s[q + 3];
    }
    forall q: nat | 0 < q && AmiAt(s, q)
      ensures !SameLine(s, 0, q)
    {
      CandidatesApart(s, 0, q);
    }
    var r := ParseImageId(s);
    var q: nat :| IsCapture(s, q) && r.value == s[q..q + IdLength];
    assert q == 0;
  }
}

=== FILE: assume_role.dfy ===
/**
 * `assume-role` (cmd/assume-role/cmd.go): a bounded wait for a role to
 * become assumable, then the temporary credentials are exported into the
 * process environment. AssumeRole answers are given per attempt; sleeping
 * is counted, not performed.
 */
module AssumeRole {
  import opened Wrappers
  import opened Errors
  import opened Paging

  const DefaultOrganizationRole: string := "OrganizationAccountAccessRole"
  const EnvAwsAccessKeyId: string := "AWS_ACCESS_KEY_ID"
  const EnvAwsSecretAccessKey: string := "AWS_SECRET_ACCESS_KEY"
  const EnvAwsSessionToken: string := "AWS_SESSION_TOKEN"
  const RoleSessionDuration: int := 3600
  const RoleSessionName: string := "awsResourceCLI"
  const MaxAttempts: nat := 100
  const SleepMillis: nat := 500

  datatype AssumeRoleRequest = AssumeRoleRequest(durationSeconds: int, roleArn: string, roleSessionName: string)

  datatype TempCredentials = TempCredentials(accessKeyId: string, secretAccessKey: string, sessionToken: string)

  /** The request of lines 80-90, built from the `--role-arn` flag's value, which it never reads. */
  function Request(roleArnFlag: string): AssumeRoleRequest {
    var role := DefaultOrganizationRole;
    AssumeRoleRequest(RoleSessionDuration, role, RoleSessionName)
  }

  /** The first attempt in `[from, bound)` whose answer is a success. */
  function FirstSuccess(respond: nat -> Result<TempCredentials, Error>, from: nat, bound: nat): (r: Option<nat>)
    decreases bound - from
    ensures r.Some? ==> from <= r.value < bound && respond(r.value).Success?
    ensures r.Some? ==> forall j | from <= j < r.value :: respond(j).Failure?
    ensures r.None? ==> forall j | from <= j < bound :: respond(j).Failure?
  {
    if from >= bound then None
    else if respond(from).Success? then Some(from)
    else FirstSuccess(respond, from + 1, bound)
  }

  /**
   * The loop `for i := 0; i < 100; i++ { sleep; AssumeRole; break on success;
   * log the timeout at i == 99 }`. `respond(i)` answers attempt `i`; `sent`
   * lists the requests made, one per attempt.
   */
  method WaitForRole(request: AssumeRoleRequest, respond: nat -> Result<TempCredentials, Error>)
    returns (r: Result<TempCredentials, Error>, attempts: nat, timedOut: bool, sent: seq<AssumeRoleRequest>)
    ensures 1 <= attempts <= MaxAttempts
    ensures attempts == match FirstSuccess(respond, 0, MaxAttempts)
                        case Some(k) => k + 1
                        case None => MaxAttempts
    ensures r == respond(attempts - 1)
    ensures forall j | 0 <= j < attempts - 1 :: respond(j).Failure?
    ensures r.Failure? ==> attempts == MaxAttempts
    ensures timedOut <==> r.Failure?
    // every attempt sends the same request
    ensures |sent| == attempts && forall j | 0 <= j < |sent| :: sent[j] == request
  {
    var i: nat := 0;
    attempts := 0;
    timedOut := false;
    sent := [];
    r := respond(0);
    while i < MaxAttempts
      invariant i <= MaxAttempts && attempts == i && |sent| == i
      invariant forall j | 0 <= j < i :: respond(j).Failure? && sent[j] == request
      invariant FirstSuccess(respond, 0, MaxAttempts) == FirstSuccess(respond, i, MaxAttempts)
      invariant i > 0 ==> r == respond(i - 1)
      invariant timedOut <==> i == MaxAttempts
      decreases MaxAttempts - i
    {
      // each attempt follows one 500 ms sleep, which Run counts
      r := respond(i);
      sent := sent + [request];
      attempts := attempts + 1;
      if r.Success? {
        break;
      }
      if i == MaxAttempts - 1 {
        timedOut := true;
      }
      i := i + 1;
    }
  }

  /** Everything the remote side answers: the two client builds, the two identity calls and each attempt. */
  datatype Remote = Remote(
    build: Option<Error>,
    identity: Result<string, Error>,
    respond: nat -> Result<TempCredentials, Error>,
    rebuild: Option<Error>,
    reidentity: Result<string, Error>)

  /** How the command ends, the environment it leaves, what it printed and waited, and the requests it sent. */
  datatype Outcome = Outcome(
    end: Termination,
    env: map<string, string>,
    attempts: nat,
    sleptMillis: nat,
    timedOut: bool,
    accounts: seq<string>,
    requests: seq<AssumeRoleRequest>)

  /** The environment after the three `os.Setenv` calls. */
  function Export(env: map<string, string>, c: TempCredentials): (r: map<string, string>)
    ensures r.Keys == env.Keys + {EnvAwsAccessKeyId, EnvAwsSecretAccessKey, EnvAwsSessionToken}
    ensures r[EnvAwsAccessKeyId] == c.accessKeyId
    ensures r[EnvAwsSecretAccessKey] == c.secretAccessKey
    ensures r[EnvAwsSessionToken] == c.sessionToken
    ensures forall k | k in env && k !in {EnvAwsAccessKeyId, EnvAwsSecretAccessKey, EnvAwsSessionToken} :: r[k] == env[k]
  {
    env[EnvAwsAccessKeyId := c.accessKeyId][EnvAwsSecretAccessKey := c.secretAccessKey][EnvAwsSessionToken := c.sessionToken]
  }

  /**
   * What the command does, stated without the loop and without the
   * `--role-arn` flag: the attempt count comes from the first successful
   * answer, and every request asks for the default organization role.
   */
  function Expected(remote: Remote, env: map<string, string>): (o: Outcome)
    // nothing is attempted when the first client or identity call fails
    ensures remote.build.Some? || remote.identity.Failure? ==>
              o.end == Exited(1) && o.env == env && o.attempts == 0 && o.requests == []
    // otherwise one 500 ms sleep per attempt, between 1 and 100 attempts
    ensures remote.build.None? && remote.identity.Success? ==>
              && 1 <= o.attempts <= MaxAttempts
              && o.sleptMillis == SleepMillis * o.attempts
              && |o.accounts| >= 1 && o.accounts[0] == remote.identity.value
              && (o.timedOut <==> FirstSuccess(remote.respond, 0, MaxAttempts).None?)
    // one request per attempt, always for the default role, whatever the flag says
    ensures |o.requests| == o.attempts
    ensures forall j | 0 <= j < |o.requests| ::
              o.requests[j] == AssumeRoleRequest(RoleSessionDuration, DefaultOrganizationRole, RoleSessionName)
    // every attempt failing: exit 1 before any variable is set
    ensures o.timedOut ==> o.end == Exited(1) && o.env == env && o.attempts == MaxAttempts
    // a success exports the three credentials, whatever happens after
    ensures remote.build.None? && remote.identity.Success? && !o.timedOut ==>
              && remote.respond(o.attempts - 1).Success?
              && o.env == Export(env, remote.respond(o.attempts - 1).value)
    ensures o.end == Returned(None) ==> |o.accounts| == 2
  {
    if remote.build.Some? || remote.identity.Failure? then
      Outcome(Exited(1), env, 0, 0, false, [], [])
    else
      var attempts := match FirstSuccess(remote.respond, 0, MaxAttempts)
                      case Some(k) => k + 1
                      case None => MaxAttempts;
      var requests := seq(attempts, _ => AssumeRoleRequest(RoleSessionDuration, DefaultOrganizationRole, RoleSessionName));
      var answer := remote.respond(attempts - 1);
      if answer.Failure? then
        Outcome(Exited(1), env, attempts, SleepMillis * attempts, true, [remote.identity.value], requests)
      else
        var env' := Export(env, answer.value);
        if remote.rebuild.Some? || remote.reidentity.Failure? then
          Outcome(Exited(1), env', attempts, SleepMillis * attempts, false, [remote.identity.value], requests)
        else
          Outcome(Returned(None), env', attempts, SleepMillis * attempts, false, [remote.identity.value, remote.reidentity.value], requests)
  }

  /**
   * The command's `Run`, with the `--role-arn` flag's value, starting from
   * the process environment `env`. The retry loop agrees with the loop-free
   * reference, which does not take the flag: the flag has no effect.
   */
  method Run(roleArnFlag: string, remote: Remote, env: map<string, string>) returns (o: Outcome)
    ensures o == Expected(remote, env)
  {
    if remote.build.Some? || remote.identity.Failure? {
      return Outcome(Exited(1), env, 0, 0, false, [], []);
    }
    var accounts := [remote.identity.value];
    var r, attempts, timedOut, sent := WaitForRole(Request(roleArnFlag), remote.respond);
    assert sent == Expected(remote, env).requests;
    if r.Failure? {
      return Outcome(Exited(1), env, attempts, SleepMillis * attempts, timedOut, accounts, sent);
    }
    var env' := Export(env, r.value);
    if remote.rebuild.Some? || remote.reidentity.Failure? {
      return Outcome(Exited(1), env', attempts, SleepMillis * attempts, timedOut, accounts, sent);
    }
    return Outcome(Returned(None), env', attempts, SleepMillis * attempts, timedOut, accounts + [remote.reidentity.value], sent);
  }
}

=== FILE: client.dfy ===
/**
 * The client builder of pkg/aws/client.go: the setters, the session and
 * credential selection of `Build`, and the error forwarding of the
 * `awsClient` wrapper methods. Session construction itself belongs to the
 * SDK and is a parameter `open`.
 */
module Aws {
  import opened Wrappers
  import opened Errors

  /** The region used when none, or the empty string, was given. */
  const DefaultRegion: string := "us-east-1"

  /** Message of the error `Build` returns without a logger. */
  const LoggerRequired: string := "Logger is required"

  /** An opaque logger handle; `None` in a builder is a nil logger. */
  datatype Logger = Logger(name: string)

  datatype StaticCredentials = StaticCredentials(accessKeyId: string, secretAccessKey: string)

  /** The builder's fields; a `None` is a nil pointer. */
  datatype Builder = Builder(
    logger: Option<Logger>,
    region: Option<string>,
    profile: Option<string>,
    roleArn: Option<string>,
    credentials: Option<StaticCredentials>)

  /** `NewClient()`: every field nil. No setter ever fills `credentials`. */
  const NewClient: Builder := Builder(None, None, None, None, None)

  function WithLogger(b: Builder, value: Option<Logger>): (r: Builder)
    ensures r.logger == value
    ensures r.region == b.region && r.profile == b.profile
    ensures r.roleArn == b.roleArn && r.credentials == b.credentials
  {
    b.(logger := value)
  }

  function WithProfile(b: Builder, value: string): (r: Builder)
    ensures r.profile == Some(value)
    ensures r.logger == b.logger && r.region == b.region
    ensures r.roleArn == b.roleArn && r.credentials == b.credentials
  {
    b.(profile := Some(value))
  }

  function WithRegion(b: Builder, value: string): (r: Builder)
    ensures r.region == Some(value)
    ensures r.logger == b.logger && r.profile == b.profile
    ensures r.roleArn == b.roleArn && r.credentials == b.credentials
  {
    b.(region := Some(value))
  }

  function WithRoleArn(b: Builder, value: string): (r: Builder)
    ensures r.roleArn == Some(value)
    ensures r.logger == b.logger && r.region == b.region && r.profile == b.profile
    ensures r.credentials == b.credentials
  {
    b.(roleArn := Some(value))
  }

  /** True when an optional string is set to something other than "". */
  predicate IsSet(s: Option<string>) {
    s.Some? && s.value != ""
  }

  /** Where a session takes its credentials from. */
  datatype SessionSource =
    | StaticKeys(creds: StaticCredentials)   // BuildSessionWithOptionsCredentials
    | NamedProfile(profile: string)          // BuildSessionWithProfileOptions
    | SharedConfig                           // BuildSessionWithOptions

  /** One call of `session.NewSessionWithOptions`. */
  datatype SessionRequest = SessionRequest(source: SessionSource, region: string)

  /** An SDK session; its contents are the SDK's. */
  datatype Session = Session(handle: nat)

  datatype Service = Ec2 | Elb | ElbV2 | Iam | Route53 | Sts

  /** The six service clients an `awsClient` holds, in field order. */
  const Services: seq<Service> := [Ec2, Elb, ElbV2, Iam, Route53, Sts]

  /** The credentials a service client signs with. */
  datatype Credentials = BaseSession | AssumedRole(roleArn: string)

  datatype ServiceClient = ServiceClient(service: Service, session: Session, credentials: Credentials)

  datatype Client = Client(logger: Logger, services: seq<ServiceClient>)

  /** The sessions `Build` asked for, in order, and what it returned. */
  datatype BuildResult = BuildResult(requests: seq<SessionRequest>, client: Result<Client, Error>)

  /** The client holds one service client per service, all on `sess` with `creds`. */
  predicate AllServicesOn(c: Client, sess: Session, creds: Credentials) {
    |c.services| == |Services|
    && forall i | 0 <= i < |Services| :: c.services[i] == ServiceClient(Services[i], sess, creds)
  }

  function EffectiveRegion(region: Option<string>): (r: string)
    ensures r != ""
    ensures IsSet(region) ==> r == region.value
    ensures !IsSet(region) ==> r == DefaultRegion
  {
    if IsSet(region) then region.value else DefaultRegion
  }

  function ServiceClients(sess: Session, creds: Credentials): seq<ServiceClient> {
    [ServiceClient(Ec2, sess, creds), ServiceClient(Elb, sess, creds), ServiceClient(ElbV2, sess, creds),
     ServiceClient(Iam, sess, creds), ServiceClient(Route53, sess, creds), ServiceClient(Sts, sess, creds)]
  }

  /** `ClientBuilder.Build`, with the SDK's session construction given as `open`. */
  function Build(b: Builder, open: SessionRequest -> Result<Session, Error>): (r: BuildResult)
    // without a logger: an error, and no session is asked for
    ensures b.logger.None? <==> r.requests == []
    ensures b.logger.None? ==> r.client == Failure(Plain(LoggerRequired))
    // every session is asked for in the effective region; the last one decides
    ensures b.logger.Some? ==>
              && 1 <= |r.requests| <= 2
              && (forall q | q in r.requests :: q.region == EffectiveRegion(b.region))
              && r.requests[|r.requests| - 1].source
                 == (if IsSet(b.profile) then NamedProfile(b.profile.value) else SharedConfig)
              && (|r.requests| == 2 <==> b.credentials.Some?)
    // a failing session construction is returned with no client
    ensures b.logger.Some? && open(r.requests[|r.requests| - 1]).Failure? ==>
              r.client == Failure(open(r.requests[|r.requests| - 1]).error)
    ensures r.client.Success? <==> b.logger.Some? && open(r.requests[|r.requests| - 1]).Success?
    // a set role ARN moves all six service clients onto assumed-role credentials
    ensures r.client.Success? ==>
              && r.client.value.logger == b.logger.value
              && AllServicesOn(r.client.value, open(r.requests[|r.requests| - 1]).value,
                               if IsSet(b.roleArn) then AssumedRole(b.roleArn.value) else BaseSession)
  {
    if b.logger.None? then
      BuildResult([], Failure(Plain(LoggerRequired)))
    else
      var region := EffectiveRegion(b.region);
      var withKeys := if b.credentials.Some? then [SessionRequest(StaticKeys(b.credentials.value), region)] else [];
      var chosen := SessionRequest(if IsSet(b.profile) then NamedProfile(b.profile.value) else SharedConfig, region);
      match open(chosen)
      case Failure(e) => BuildResult(withKeys + [chosen], Failure(e))
      case Success(sess) =>
        var creds := if IsSet(b.roleArn) then AssumedRole(b.roleArn.value) else BaseSession;
        BuildResult(withKeys + [chosen], Success(Client(b.logger.value, ServiceClients(sess, creds))))
  }

  /** Stored static credentials are asked for but never decide the client. */
  lemma StaticCredentialsNeverDecide(b: Builder, creds: Option<StaticCredentials>,
                                     open: SessionRequest -> Result<Session, Error>)
    ensures Build(b.(credentials := creds), open).client == Build(b, open).client
  {
  }

  /** An empty region, profile or role ARN builds exactly what an unset one does. */
  lemma EmptyIsUnset(b: Builder, open: SessionRequest -> Result<Session, Error>)
    ensures Build(WithRegion(b, ""), open) == Build(b.(region := None), open)
    ensures Build(WithProfile(b, ""), open) == Build(b.(profile := None), open)
    ensures Build(WithRoleArn(b, ""), open) == Build(b.(roleArn := None), open)
  {
  }

  /** Naming the default region explicitly builds the same client as leaving it out. */
  lemma DefaultRegionIsExplicitRegion(b: Builder, open: SessionRequest -> Result<Session, Error>)
    ensures Build(WithRegion(b, DefaultRegion), open) == Build(b.(region := None), open)
  {
  }

  /** The client methods that forward an SDK call. */
  datatype ApiCall =
    | DescribeInstances | DescribeLoadBalancers | DescribeV2LoadBalancers | DescribeRegions
    | DescribeSnapshots | DescribeSnapshotsPages | DeleteSnapshot | DescribeImages
    | DeregisterImage | DescribeVolumes | GetCallerIdentity | ListHostedZonesByName

  /** The message a wrapper puts around an error that is not an `awserr.Error`, if any. */
  function NonAwsContext(call: ApiCall): Option<string> {
    match call
    case DescribeSnapshots => Some("describe snpshots failed, ")
    case DescribeSnapshotsPages => Some("describe snapshots failed, ")
    case DeleteSnapshot => Some("describe snapshots failed, ")
    case DescribeImages => Some("describe images failed, ")
    case DeregisterImage => Some("deregister images failed, ")
    case _ => None
  }

  /** What an `awsClient` method returns for the SDK's answer `raw`. */
  function Forward<T>(call: ApiCall, raw: Result<T, Error>): (r: Result<T, Error>)
    ensures raw.Success? ==> r == raw
    ensures raw.Failure? && raw.error.AwsError? ==> r == raw
    ensures r.Failure? <==> raw.Failure?
    ensures r.Failure? ==> Root(r.error) == Root(raw.error)
    ensures raw.Failure? && !raw.error.AwsError? ==> (r == raw <==> NonAwsContext(call).None?)
    // a foreign error is wrapped once, in the call's own message
    ensures raw.Failure? && !raw.error.AwsError? && NonAwsContext(call).Some? ==>
              r == Failure(Wrapped(NonAwsContext(call).value, raw.error))
  {
    match raw
    case Success(_) => raw
    case Failure(e) =>
      if e.AwsError? || NonAwsContext(call).None? then raw
      else Failure(Wrapped(NonAwsContext(call).value, e))
  }

  /** The snapshot calls wrap foreign errors; the instance call hands them back unchanged. */
  lemma SnapshotsWrapInstancesForward<T>(msg: string, result: T)
    ensures Forward<T>(DescribeSnapshots, Failure(Plain(msg))) != Failure(Plain(msg))
    ensures Forward<T>(DescribeSnapshotsPages, Failure(Plain(msg))) != Failure(Plain(msg))
    ensures Forward<T>(DescribeInstances, Failure(Plain(msg))) == Failure(Plain(msg))
    ensures Forward(DescribeSnapshots, Success(result)) == Success(result)
    ensures Forward(DescribeInstances, Success(result)) == Success(result)
  {
  }
}

=== FILE: delete_ec2.dfy ===
/**
 * `delete ec2` (cmd/del/ec2/cmd.go): in every region, read all instance
 * pages, keep the running instances, terminate them in one call, and compare
 * the number of terminating ids with the number of running instances.
 */
module DeleteEc2 {
  import opened Wrappers
  import opened Errors
  import opened Paging
  import opened Ec2

  /** One TerminateInstances call. */
  datatype TerminateCall = TerminateCall(instanceIds: seq<string>, dryRun: bool)

  /**
   * One region: its client's build error, its instance pages, and the answer
   * TerminateInstances would give there (the terminating ids, or an error).
   */
  datatype RegionInstances = RegionInstances(
    name: string,
    clientErr: Option<Error>,
    pages: Pages<Reservation>,
    terminate: Result<seq<string>, Error>)

  /** What one region contributes: an early end, the call made, a mismatch, the running instances. */
  datatype RegionStep = RegionStep(stop: Option<Termination>, call: Option<TerminateCall>, mismatch: bool, running: seq<Instance>)

  /** The instances `DescribeInstancesPages` appended; a paging error is only logged, so they may be partial. */
  function RegionInstancesFound(pages: Pages<Reservation>): seq<Instance> {
    InstancesOf(Drain(pages).items)
  }

  /** The body of the region loop. */
  function Region(dryRun: bool, region: RegionInstances): (r: RegionStep)
    ensures region.clientErr.Some? ==> r == RegionStep(Some(Returned(region.clientErr)), None, false, [])
    ensures region.clientErr.None? ==>
              && r.running == RunningOnly(RegionInstancesFound(region.pages))
              && (r.call.Some? <==> r.running != [])
              && (r.call.Some? ==> r.call.value == TerminateCall(InstanceIds(r.running), dryRun))
    // a region without running instances reports nothing and the loop moves on
    ensures r.running == [] ==> !r.mismatch
    ensures region.clientErr.None? && r.running == [] ==> r.stop.None?
    // under dry-run nothing is listed as deleted, so every region with running instances mismatches
    ensures dryRun && r.running != [] ==> r.mismatch && r.stop.None?
    // otherwise a failed terminate is dereferenced; a successful one mismatches iff the counts differ
    ensures !dryRun && r.running != [] ==>
              && (region.terminate.Failure? <==> r.stop == Some(Crashed))
              && (region.terminate.Success? ==> r.stop.None? && (r.mismatch <==> |region.terminate.value| != |r.running|))
  {
    if region.clientErr.Some? then RegionStep(Some(Returned(region.clientErr)), None, false, [])
    else
      var running := RunningOnly(RegionInstancesFound(region.pages));
      if running == [] then RegionStep(None, None, false, running)
      else
        // `terminateInstances` sends the running ids and hands back the answer unchanged
        var call := TerminateCall(InstanceIds(running), dryRun);
        var output := region.terminate;
        if dryRun then RegionStep(None, Some(call), |running| != 0, running)
        else if output.Failure? then RegionStep(Some(Crashed), Some(call), false, running)
        else RegionStep(None, Some(call), |running| != |output.value|, running)
  }

  /** What the run did: the terminate calls, the regions reported as mismatched, whether running instances were seen. */
  datatype Summary = Summary(calls: seq<TerminateCall>, mismatches: seq<string>, instancesFound: bool)

  /** A stop the region loop can make: a region client error returned, or a crash. */
  predicate IsStop(t: Termination) {
    t == Crashed || (t.Returned? && t.err.Some?)
  }

  /** The index of the first region that stops the run, or `|regions|`. */
  function FirstStop(dryRun: bool, regions: seq<RegionInstances>): (n: nat)
    ensures n <= |regions|
    ensures forall k | 0 <= k < n :: Region(dryRun, regions[k]).stop.None?
    ensures n < |regions| ==> Region(dryRun, regions[n]).stop.Some?
  {
    if regions == [] then 0
    else if Region(dryRun, regions[0]).stop.Some? then 0
    else 1 + FirstStop(dryRun, regions[1..])
  }

  /** The regions the loop gets to: all of them, or up to and including the one that stops it. */
  function Reached(dryRun: bool, regions: seq<RegionInstances>): seq<RegionInstances> {
    var n := FirstStop(dryRun, regions);
    if n < |regions| then regions[..n + 1] else regions
  }

  /** The terminate calls of the given regions, in order. */
  function CallsOf(dryRun: bool, regions: seq<RegionInstances>): seq<TerminateCall> {
    if regions == [] then []
    else
      var call := Region(dryRun, regions[0]).call;
      (if call.Some? then [call.value] else []) + CallsOf(dryRun, regions[1..])
  }

  /** The names of the given regions whose counts mismatch, in order. */
  function MismatchesOf(dryRun: bool, regions: seq<RegionInstances>): seq<string> {
    if regions == [] then []
    else (if Region(dryRun, regions[0]).mismatch then [regions[0].name] else []) + MismatchesOf(dryRun, regions[1..])
  }

  /** Some given region has a running instance. */
  predicate AnyRunning(dryRun: bool, regions: seq<RegionInstances>) {
    exists k | 0 <= k < |regions| :: Region(dryRun, regions[k]).running != []
  }

  /**
   * How the region loop ends: the first region that stops it decides the
   * stop, and the calls, mismatches and running instances are those of the
   * regions reached.
   */
  predicate Ends(dryRun: bool, regions: seq<RegionInstances>, stop: Option<Termination>, summary: Summary) {
    var n := FirstStop(dryRun, regions);
    var reached := Reached(dryRun, regions);
    && stop == (if n < |regions| then Region(dryRun, regions[n]).stop else None)
    && summary.calls == CallsOf(dryRun, reached)
    && summary.mismatches == MismatchesOf(dryRun, reached)
    && (summary.instancesFound <==> AnyRunning(dryRun, reached))
  }

  /** A first region that stops the run is the only one reached. */
  lemma EndsHead(dryRun: bool, regions: seq<RegionInstances>, summary: Summary)
    requires regions != [] && Region(dryRun, regions[0]).stop.Some?
    requires var step := Region(dryRun, regions[0]);
             summary == Summary(if step.call.Some? then [step.call.value] else [],
                                if step.mismatch then [regions[0].name] else [],
                                step.running != [])
    ensures Ends(dryRun, regions, Region(dryRun, regions[0]).stop, summary)
  {
    assert FirstStop(dryRun, regions) == 0;
    var reached := regions[..1];
    assert reached[0] == regions[0] && reached[1..] == [];
    assert CallsOf(dryRun, reached) == summary.calls;
    assert MismatchesOf(dryRun, reached) == summary.mismatches;
  }

  /** Past a first region that does not stop the run, the loop reaches it and then what the rest reaches. */
  lemma ReachedStep(dryRun: bool, regions: seq<RegionInstances>)
    requires regions != [] && Region(dryRun, regions[0]).stop.None?
    ensures Reached(dryRun, regions) == [regions[0]] + Reached(dryRun, regions[1..])
  {
    var n' := FirstStop(dryRun, regions[1..]);
    assert FirstStop(dryRun, regions) == n' + 1;
    if n' < |regions| - 1 {
      assert regions[..n' + 2] == [regions[0]] + regions[1..][..n' + 1];
    } else {
      assert regions == [regions[0]] + regions[1..];
    }
  }

  /** The reference sums split at the first region. */
  lemma OfCons(dryRun: bool, head: RegionInstances, tail: seq<RegionInstances>)
    ensures var step := Region(dryRun, head);
            && CallsOf(dryRun, [head] + tail) == (if step.call.Some? then [step.call.value] else []) + CallsOf(dryRun, tail)
            && MismatchesOf(dryRun, [head] + tail) == (if step.mismatch then [head.name] else []) + MismatchesOf(dryRun, tail)
            && (AnyRunning(dryRun, [head] + tail) <==> step.running != [] || AnyRunning(dryRun, tail))
  {
    var all := [head] + tail;
    assert all[0] == head && all[1..] == tail;
    if AnyRunning(dryRun, all) {
      var k :| 0 <= k < |all| && Region(dryRun, all[k]).running != [];
      if k > 0 {
        assert tail[k - 1] == all[k];
      }
    }
    if AnyRunning(dryRun, tail) {
      var k :| 0 <= k < |tail| && Region(dryRun, tail[k]).running != [];
      assert all[k + 1] == tail[k];
    }
  }

  /** A first region that does not stop the run puts its contribution in front of the rest's. */
  lemma EndsStep(dryRun: bool, regions: seq<RegionInstances>, stop: Option<Termination>, rest: Summary)
    requires regions != [] && Region(dryRun, regions[0]).stop.None?
    requires Ends(dryRun, regions[1..], stop, rest)
    ensures var step := Region(dryRun, regions[0]);
            Ends(dryRun, regions, stop,
                 Summary((if step.call.Some? then [step.call.value] else []) + rest.calls,
                         (if step.mismatch then [regions[0].name] else []) + rest.mismatches,
                         step.running != [] || rest.instancesFound))
  {
    var n' := FirstStop(dryRun, regions[1..]);
    assert FirstStop(dryRun, regions) == n' + 1;
    if n' < |regions| - 1 {
      assert regions[n' + 1] == regions[1..][n'];
    }
    ReachedStep(dryRun, regions);
    OfCons(dryRun, regions[0], Reached(dryRun, regions[1..]));
  }

  /** The region loop from `regions[0]` on, until a region stops the run. */
  function Regions(dryRun: bool, regions: seq<RegionInstances>): (r: (Option<Termination>, Summary))
    ensures r.0.Some? ==> IsStop(r.0.value)
    // the first region that stops the run decides the end; the calls, mismatches
    // and running instances are exactly those of the regions reached
    ensures Ends(dryRun, regions, r.0, r.1)
    // running instances were seen in some region iff a terminate call was made
    ensures r.1.instancesFound <==> r.1.calls != []
    // at most one call per region
    ensures |r.1.calls| <= |regions|
    ensures r.0.None? && dryRun ==> |r.1.mismatches| == |r.1.calls|
    ensures forall c | c in r.1.calls :: c.dryRun == dryRun && c.instanceIds != []
  {
    if regions == [] then (None, Summary([], [], false))
    else
      var step := Region(dryRun, regions[0]);
      var here := Summary(
        if step.call.Some? then [step.call.value] else [],
        if step.mismatch then [regions[0].name] else [],
        step.running != []);
      if step.stop.Some? then
        EndsHead(dryRun, regions, here);
        (step.stop, here)
      else
        var (stop, rest) := Regions(dryRun, regions[1..]);
        EndsStep(dryRun, regions, stop, rest);
        (stop, Summary(here.calls + rest.calls, here.mismatches + rest.mismatches,
                       here.instancesFound || rest.instancesFound))
  }

  datatype RunResult = RunResult(end: Termination, summary: Summary, noneFoundReported: bool)

  /** `run`, with the first client's build error and DescribeRegions' answer given. */
  function Run(dryRun: bool, build: Option<Error>, regions: Result<seq<RegionInstances>, Error>): (r: RunResult)
    ensures build.Some? ==> r.end == Returned(build) && r.summary.calls == []
    ensures build.None? && regions.Failure? ==> r.end == Returned(Some(regions.error)) && r.summary.calls == []
    // "No running instances found" is reported iff no region had a running instance
    ensures r.end == Returned(None) ==> (r.noneFoundReported <==> r.summary.calls == [])
    ensures r.end == Returned(None) && regions.Success? ==> |r.summary.calls| <= |regions.value|
    ensures r.end == Returned(None) && dryRun ==> |r.summary.mismatches| == |r.summary.calls|
    ensures forall c | c in r.summary.calls :: c.dryRun == dryRun && c.instanceIds != []
    // once the regions are described, the region loop's reference decides everything
    ensures build.None? && regions.Success? ==>
              Ends(dryRun, regions.value, if r.end == Returned(None) then None else Some(r.end), r.summary)
    // "No running instances found" is reported iff every region is reached and none had a running instance
    ensures build.None? && regions.Success? ==>
              (r.noneFoundReported <==> FirstStop(dryRun, regions.value) == |regions.value| && !AnyRunning(dryRun, regions.value))
  {
    if build.Some? then RunResult(Returned(build), Summary([], [], false), false)
    else if regions.Failure? then RunResult(Returned(Some(regions.error)), Summary([], [], false), false)
    else
      var (stop, summary) := Regions(dryRun, regions.value);
      if stop.Some? then RunResult(stop.value, summary, false)
      else RunResult(Returned(None), summary, !summary.instancesFound)
  }

  /** A paging error is only logged: the instances of the pages read before it are still terminated. */
  lemma PagingErrorKeepsEarlierPages(dryRun: bool, name: string, first: seq<Reservation>, e: Error,
                                     answer: Result<seq<string>, Error>)
    requires RunningOnly(InstancesOf(first)) != []
    ensures Region(dryRun, RegionInstances(name, None, More(first, Broken(e)), answer)).call
            == Some(TerminateCall(InstanceIds(RunningOnly(InstancesOf(first))), dryRun))
  {
    var pages := More(first, Broken(e));
    assert [] + first == first;
    assert Drain(pages) == Collect(Broken(e), first);
    assert RegionInstancesFound(pages) == InstancesOf(first);
  }
}

=== FILE: delete_images.dfy ===
/**
 * `delete images` (cmd/del/images/cmd.go): deregister one image by id, or
 * every self-owned image of every region, stopping at the first failure.
 */
module DeleteImages {
  import opened Wrappers
  import opened Errors
  import opened Paging
  import opened Seqs

  const BuildFailed: string := "Unable to build AWS client"
  const RegionsFailed: string := "Failed to describe regions"
  const DeregisterFailed: string := "Unable to deregister image: "
  const DescribeFailed: string := "Unable to describe images "

  /** One DeregisterImage request. */
  datatype DeregisterCall = DeregisterCall(imageId: string, dryRun: bool)

  /** `deleteImageId`: one DeregisterImage call; its error comes back wrapped, success as no error. */
  function DeleteImageId(imageId: string, dryRun: bool, answer: Option<Error>): (r: (DeregisterCall, Option<Error>))
    ensures r.0 == DeregisterCall(imageId, dryRun)
    ensures r.1.None? <==> answer.None?
    ensures answer.Some? ==> r.1 == Some(Wrapped(DeregisterFailed, answer.value)) && Root(r.1.value) == Root(answer.value)
  {
    var call := DeregisterCall(imageId, dryRun);
    match answer
    case None => (call, None)
    case Some(e) => (call, Some(Wrapped(DeregisterFailed, e)))
  }

  /**
   * One region: its client's build error, DescribeImages' answer (the image
   * ids, owner "self"), and DeregisterImage's answer for each image id.
   */
  datatype RegionImages = RegionImages(
    name: string,
    clientErr: Option<Error>,
    describe: Result<seq<string>, Error>,
    deregister: string -> Option<Error>)

  /** What `deleteAllImages` did: whether it exited, the error it returned, the calls it made. */
  datatype Sweep = Sweep(exited: bool, err: Option<Error>, calls: seq<DeregisterCall>)

  /** The reference plan: every described image of every region, in order, with the same dry-run value. */
  function Planned(regions: seq<RegionImages>, dryRun: bool): seq<DeregisterCall> {
    if regions == [] then []
    else
      var ids := if regions[0].describe.Success? then regions[0].describe.value else [];
      CallsFor(ids, dryRun) + Planned(regions[1..], dryRun)
  }

  /** The calls for `ids`, in order, with the same dry-run value. */
  function CallsFor(ids: seq<string>, dryRun: bool): (r: seq<DeregisterCall>)
    ensures |r| == |ids| && forall k | 0 <= k < |ids| :: r[k] == DeregisterCall(ids[k], dryRun)
  {
    seq(|ids|, k requires 0 <= k < |ids| => DeregisterCall(ids[k], dryRun))
  }

  lemma CallsForCons(ids: seq<string>, dryRun: bool)
    requires ids != []
    ensures CallsFor(ids, dryRun) == [DeregisterCall(ids[0], dryRun)] + CallsFor(ids[1..], dryRun)
  {
  }

  /**
   * The image loop of one region made the calls for a prefix of `ids`: all
   * of them when every deregistration succeeds, otherwise up to the first
   * failing one, whose error is returned wrapped.
   */
  predicate StopsAtFirstFailure(ids: seq<string>, dryRun: bool, answer: string -> Option<Error>,
                                r: (Option<Error>, seq<DeregisterCall>)) {
    && |r.1| <= |ids| && r.1 == CallsFor(ids[..|r.1|], dryRun)
    // every call but a failing last one succeeded
    && (forall k | 0 <= k < |r.1| - 1 :: answer(ids[k]).None?)
    && (r.0.None? <==> |r.1| == |ids| && forall k | 0 <= k < |ids| :: answer(ids[k]).None?)
    && (r.0.Some? ==>
          && |r.1| >= 1
          && answer(ids[|r.1| - 1]).Some?
          && r.0.value == Wrapped(DeregisterFailed, answer(ids[|r.1| - 1]).value))
  }

  /** A first deregistration that succeeds puts its call in front of the rest's and keeps the loop's meaning. */
  lemma StopsAtFirstFailureStep(ids: seq<string>, dryRun: bool, answer: string -> Option<Error>,
                                rest: (Option<Error>, seq<DeregisterCall>))
    requires ids != [] && answer(ids[0]).None?
    requires StopsAtFirstFailure(ids[1..], dryRun, answer, rest)
    ensures StopsAtFirstFailure(ids, dryRun, answer, (rest.0, [DeregisterCall(ids[0], dryRun)] + rest.1))
  {
    var n := |rest.1| + 1;
    assert ids[..n][1..] == ids[1..][..n - 1];
    CallsForCons(ids[..n], dryRun);
    TailIndex(ids);
  }

  /** The image loop of one region, from `ids[0]` on: stop at the first failed deregistration. */
  function DeregisterEach(ids: seq<string>, dryRun: bool, answer: string -> Option<Error>): (r: (Option<Error>, seq<DeregisterCall>))
    ensures StopsAtFirstFailure(ids, dryRun, answer, r)
    decreases |ids|
  {
    if ids == [] then (None, [])
    else
      var call := DeregisterCall(ids[0], dryRun);
      match answer(ids[0])
      case Some(e) =>
        CallsForCons(ids[..1], dryRun);
        (Some(Wrapped(DeregisterFailed, e)), [call])
      case None =>
        var rest := DeregisterEach(ids[1..], dryRun, answer);
        StopsAtFirstFailureStep(ids, dryRun, answer, rest);
        (rest.0, [call] + rest.1)
  }

  /** The calls for the first `n` ids are the first `n` calls of any plan that starts with all of them. */
  lemma PrefixOfCalls(ids: seq<string>, n: nat, dryRun: bool, later: seq<DeregisterCall>)
    requires n <= |ids|
    ensures CallsFor(ids[..n], dryRun) == (CallsFor(ids, dryRun) + later)[..n]
  {
  }

  /** A region the sweep passes through: client built, images described, every deregistration accepted. */
  predicate Clean(region: RegionImages) {
    && region.clientErr.None?
    && region.describe.Success?
    && forall k | 0 <= k < |region.describe.value| :: region.deregister(region.describe.value[k]).None?
  }

  /** The index of the first region that is not clean, or `|regions|`. */
  function FirstUnclean(regions: seq<RegionImages>): (n: nat)
    ensures n <= |regions|
    ensures forall k | 0 <= k < n :: Clean(regions[k])
    ensures n < |regions| ==> !Clean(regions[n])
  {
    if regions == [] || !Clean(regions[0]) then 0 else 1 + FirstUnclean(regions[1..])
  }

  /**
   * How a sweep over `regions` ends: the first region that is not clean
   * decides it, the plan before that region is carried out in full, and
   * nothing after it is attempted.
   */
  predicate EndsAt(regions: seq<RegionImages>, dryRun: bool, r: Sweep) {
    var n := FirstUnclean(regions);
    && (n == |regions| <==> !r.exited && r.err.None?)
    && (n < |regions| ==> (r.exited <==> regions[n].clientErr.Some?))
    && (n < |regions| && regions[n].clientErr.Some? ==> r.calls == Planned(regions[..n], dryRun))
    && (n < |regions| && regions[n].clientErr.None? && regions[n].describe.Failure? ==>
          && r.err == Some(Wrapped(DescribeFailed, regions[n].describe.error))
          && r.calls == Planned(regions[..n], dryRun))
    && (n < |regions| && regions[n].clientErr.None? && regions[n].describe.Success? ==>
          var each := DeregisterEach(regions[n].describe.value, dryRun, regions[n].deregister);
          r.err == each.0 && r.calls == Planned(regions[..n], dryRun) + each.1)
  }

  /** A clean first region adds its calls in front and keeps how the rest ends. */
  lemma {:induction false} EndsAtStep(regions: seq<RegionImages>, dryRun: bool, rest: Sweep)
    requires regions != [] && Clean(regions[0])
    requires EndsAt(regions[1..], dryRun, rest)
    ensures EndsAt(regions, dryRun, Sweep(rest.exited, rest.err, CallsFor(regions[0].describe.value, dryRun) + rest.calls))
  {
    var n := FirstUnclean(regions);
    var calls := CallsFor(regions[0].describe.value, dryRun);
    assert n == 1 + FirstUnclean(regions[1..]);
    assert regions[..n][0] == regions[0];
    assert regions[..n][1..] == regions[1..][..n - 1];
    assert Planned(regions[..n], dryRun) == calls + Planned(regions[1..][..n - 1], dryRun);
    forall tail: seq<DeregisterCall> {
      Associative(calls, Planned(regions[1..][..n - 1], dryRun), tail);
    }
  }

  /** A first region that is not clean ends the sweep by itself. */
  lemma EndsAtHead(regions: seq<RegionImages>, dryRun: bool, r: Sweep)
    requires regions != [] && !Clean(regions[0])
    requires regions[0].clientErr.Some? ==> r == Sweep(true, None, [])
    requires regions[0].clientErr.None? && regions[0].describe.Failure? ==>
               r == Sweep(false, Some(Wrapped(DescribeFailed, regions[0].describe.error)), [])
    requires regions[0].clientErr.None? && regions[0].describe.Success? ==>
               var each := DeregisterEach(regions[0].describe.value, dryRun, regions[0].deregister);
               r == Sweep(false, each.0, each.1)
    ensures EndsAt(regions, dryRun, r)
  {
    assert FirstUnclean(regions) == 0;
    assert regions[..0] == [];
  }

  /**
   * The calls of a sweep are the plan's first calls, nothing out of order
   * and nothing skipped before a stop; only a sweep with no failure makes
   * every planned call.
   */
  predicate FollowsPlan(regions: seq<RegionImages>, dryRun: bool, r: Sweep) {
    var plan := Planned(regions, dryRun);
    && |r.calls| <= |plan| && r.calls == plan[..|r.calls|]
    && (!r.exited && r.err.None? ==> r.calls == plan)
  }

  /** A clean first region puts its calls in front of the rest's and keeps them on plan. */
  lemma FollowsPlanStep(regions: seq<RegionImages>, dryRun: bool, rest: Sweep)
    requires regions != [] && Clean(regions[0])
    requires FollowsPlan(regions[1..], dryRun, rest)
    ensures FollowsPlan(regions, dryRun, Sweep(rest.exited, rest.err, CallsFor(regions[0].describe.value, dryRun) + rest.calls))
  {
    var calls := CallsFor(regions[0].describe.value, dryRun);
    assert Planned(regions, dryRun) == calls + Planned(regions[1..], dryRun);
    PrefixUnderFront(calls, rest.calls, Planned(regions[1..], dryRun));
  }

  /** `deleteAllImages` from `regions[0]` on. */
  function DeleteAllImages(regions: seq<RegionImages>, dryRun: bool): (r: Sweep)
    ensures r.exited ==> r.err.None?
    // the calls made are the plan's first calls; only a run with no failure makes them all
    ensures FollowsPlan(regions, dryRun, r)
    // the first region that is not clean decides the end, and nothing after it is attempted
    ensures EndsAt(regions, dryRun, r)
    // a failure is returned wrapped in the message of the call that failed
    ensures r.err.Some? ==> r.err.value.Wrapped? && r.err.value.context in {DeregisterFailed, DescribeFailed}
    decreases |regions|
  {
    if regions == [] then Sweep(false, None, [])
    else
      var region := regions[0];
      if region.clientErr.Some? then
        EndsAtHead(regions, dryRun, Sweep(true, None, []));
        Sweep(true, None, [])
      else if region.describe.Failure? then
        EndsAtHead(regions, dryRun, Sweep(false, Some(Wrapped(DescribeFailed, region.describe.error)), []));
        Sweep(false, Some(Wrapped(DescribeFailed, region.describe.error)), [])
      else
        var ids := region.describe.value;
        var (err, calls) := DeregisterEach(ids, dryRun, region.deregister);
        PrefixOfCalls(ids, |calls|, dryRun, Planned(regions[1..], dryRun));
        if err.Some? then
          EndsAtHead(regions, dryRun, Sweep(false, err, calls));
          Sweep(false, err, calls)
        else
          var rest := DeleteAllImages(regions[1..], dryRun);
          assert ids[..|calls|] == ids;
          FollowsPlanStep(regions, dryRun, rest);
          EndsAtStep(regions, dryRun, rest);
          Sweep(rest.exited, rest.err, calls + rest.calls)
  }

  /** A first region that is not clean decides the sweep, whatever follows it. */
  lemma UncleanHeadDecides(regions: seq<RegionImages>, more: seq<RegionImages>, dryRun: bool)
    requires regions != [] && !Clean(regions[0])
    ensures DeleteAllImages(regions + more, dryRun) == DeleteAllImages(regions, dryRun)
  {
    assert (regions + more)[0] == regions[0];
  }

  /** A clean first region puts its own calls in front of the rest's sweep. */
  lemma CleanHeadUnfolds(regions: seq<RegionImages>, dryRun: bool)
    requires regions != [] && Clean(regions[0])
    ensures var rest := DeleteAllImages(regions[1..], dryRun);
            DeleteAllImages(regions, dryRun) == Sweep(rest.exited, rest.err, CallsFor(regions[0].describe.value, dryRun) + rest.calls)
  {
    var ids := regions[0].describe.value;
    var each := DeregisterEach(ids, dryRun, regions[0].deregister);
    assert each.0.None?;
    assert ids[..|each.1|] == ids;
  }

  /** The same unfolding with more regions after the first. */
  lemma CleanHeadAppend(regions: seq<RegionImages>, more: seq<RegionImages>, dryRun: bool)
    requires regions != [] && Clean(regions[0])
    ensures var rest := DeleteAllImages(regions[1..] + more, dryRun);
            DeleteAllImages(regions + more, dryRun) == Sweep(rest.exited, rest.err, CallsFor(regions[0].describe.value, dryRun) + rest.calls)
  {
    assert (regions + more)[0] == regions[0];
    assert (regions + more)[1..] == regions[1..] + more;
    CleanHeadUnfolds(regions + more, dryRun);
  }

  /** A sweep that exits or fails ends there: regions appended after it change nothing. */
  lemma {:induction false} FailureEndsSweep(regions: seq<RegionImages>, more: seq<RegionImages>, dryRun: bool)
    requires DeleteAllImages(regions, dryRun).exited || DeleteAllImages(regions, dryRun).err.Some?
    ensures DeleteAllImages(regions + more, dryRun) == DeleteAllImages(regions, dryRun)
    decreases |regions|
  {
    assert regions != [];
    if Clean(regions[0]) {
      CleanHeadUnfolds(regions, dryRun);
      CleanHeadAppend(regions, more, dryRun);
      FailureEndsSweep(regions[1..], more, dryRun);
    } else {
      UncleanHeadDecides(regions, more, dryRun);
    }
  }

  /**
   * The first failing deregistration stops the sweep: its error is returned,
   * and no later image of the region and no later region is attempted.
   */
  lemma FirstFailureStops(dryRun: bool, regions: seq<RegionImages>, j: nat)
    requires regions != [] && regions[0].clientErr.None? && regions[0].describe.Success?
    requires j < |regions[0].describe.value| && regions[0].deregister(regions[0].describe.value[j]).Some?
    requires forall k | 0 <= k < j :: regions[0].deregister(regions[0].describe.value[k]).None?
    ensures var ids := regions[0].describe.value;
            DeleteAllImages(regions, dryRun)
            == Sweep(false, Some(Wrapped(DeregisterFailed, regions[0].deregister(ids[j]).value)), CallsFor(ids[..j + 1], dryRun))
  {
  }

  /** How `run` ends and the calls it made. */
  datatype Outcome = Outcome(end: Termination, calls: seq<DeregisterCall>)

  /**
   * `run`: with an image id, only that image is deregistered (on the first
   * client); without one, every image of every region. Once the regions are
   * described the command returns no error whatever the deletions did.
   */
  function Run(imageId: string, dryRun: bool, build: Option<Error>, regions: Result<seq<RegionImages>, Error>,
               answer: Option<Error>): (r: Outcome)
    ensures build.Some? ==> r == Outcome(Returned(Some(Plain(BuildFailed))), [])
    ensures build.None? && regions.Failure? ==> r == Outcome(Returned(Some(Plain(RegionsFailed))), [])
    ensures build.None? && regions.Success? && imageId != "" ==>
              r == Outcome(Returned(None), [DeregisterCall(imageId, dryRun)])
    ensures build.None? && regions.Success? && imageId == "" ==>
              && (r.end == Returned(None) || r.end == Exited(1))
              && r.calls == DeleteAllImages(regions.value, dryRun).calls
    // the sweep exits 1 iff the first region that is not clean could not build its client
    ensures build.None? && regions.Success? && imageId == "" ==>
              var n := FirstUnclean(regions.value);
              r.end == (if n < |regions.value| && regions.value[n].clientErr.Some? then Exited(1) else Returned(None))
  {
    if build.Some? then Outcome(Returned(Some(Plain(BuildFailed))), [])
    else if regions.Failure? then Outcome(Returned(Some(Plain(RegionsFailed))), [])
    else if imageId != "" then
      var (call, _) := DeleteImageId(imageId, dryRun, answer);
      Outcome(Returned(None), [call])
    else
      var sweep := DeleteAllImages(regions.value, dryRun);
      Outcome(if sweep.exited then Exited(1) else Returned(None), sweep.calls)
  }

  /** The deletions' errors never reach the caller: once the regions are described, no error is returned. */
  lemma RunIgnoresDeletionErrors(imageId: string, dryRun: bool, regions: seq<RegionImages>, answer: Option<Error>)
    ensures Run(imageId, dryRun, None, Success(regions), answer).end in {Returned(None), Exited(1)}
    ensures imageId != "" ==> Run(imageId, dryRun, None, Success(regions), answer).end == Returned(None)
    // only a region client error, which exits 1, keeps the sweep from returning nil
    ensures imageId == "" && (forall k | 0 <= k < |regions| :: regions[k].clientErr.None?) ==>
              Run(imageId, dryRun, None, Success(regions), answer).end == Returned(None)
  {
  }
}

=== FILE: delete_route53.dfy ===
/**
 * `delete route53` (cmd/del/route53/cmd.go): delete one hosted zone by id, or
 * every zone of the single ListHostedZonesByName answer, carrying on past
 * failures.
 */
module DeleteRoute53 {
  import opened Wrappers
  import opened Errors
  import opened Paging

  const DeleteFailed: string := "unable to delete hosted zone: "

  /** `deleteHostedZoneId`: no error on success, otherwise the wrapped error. */
  function DeleteHostedZoneId(zoneId: string, answer: Option<Error>): (r: Option<Error>)
    ensures r.None? <==> answer.None?
    ensures answer.Some? ==> r == Some(Wrapped(DeleteFailed, answer.value)) && Root(r.value) == Root(answer.value)
  {
    if answer.Some? then Some(Wrapped(DeleteFailed, answer.value)) else None
  }

  /** What `deleteAllHostedZones` did: the zones it tried, those that failed, and the error it returned. */
  datatype Sweep = Sweep(attempted: seq<string>, failed: seq<string>, err: Option<Error>)

  /** The zone loop from `ids[0]` on: every zone is tried and a failure is only logged. */
  function DeleteEach(ids: seq<string>, answer: string -> Option<Error>): (r: (seq<string>, seq<string>))
    ensures r.0 == ids
    ensures |r.1| <= |ids|
    ensures forall z | z in r.1 :: z in ids && answer(z).Some?
    ensures forall z | z in ids && answer(z).Some? :: z in r.1
    decreases |ids|
  {
    if ids == [] then ([], [])
    else
      var rest := DeleteEach(ids[1..], answer);
      var failed := if DeleteHostedZoneId(ids[0], answer(ids[0])).Some? then [ids[0]] + rest.1 else rest.1;
      assert ids == [ids[0]] + ids[1..];
      ([ids[0]] + rest.0, failed)
  }

  /**
   * `deleteAllHostedZones`, given the one ListHostedZonesByName answer (no
   * further pages are requested) and each zone's delete answer.
   */
  function DeleteAllHostedZones(listing: Result<seq<string>, Error>, answer: string -> Option<Error>): (r: Sweep)
    // a listing failure is returned as is and nothing is deleted
    ensures listing.Failure? ==> r == Sweep([], [], Some(listing.error))
    // otherwise every listed zone is tried, in order, and no error is returned
    ensures listing.Success? ==> r.attempted == listing.value && r.err.None?
    ensures listing.Success? ==> forall z | z in listing.value :: (z in r.failed <==> answer(z).Some?)
  {
    if listing.Failure? then Sweep([], [], Some(listing.error))
    else
      var (attempted, failed) := DeleteEach(listing.value, answer);
      Sweep(attempted, failed, None)
  }

  /** A failure does not stop the sweep: the zones tried do not depend on the delete answers. */
  lemma FailuresDoNotStop(listing: Result<seq<string>, Error>, a1: string -> Option<Error>, a2: string -> Option<Error>)
    ensures DeleteAllHostedZones(listing, a1).attempted == DeleteAllHostedZones(listing, a2).attempted
    ensures DeleteAllHostedZones(listing, a1).err == DeleteAllHostedZones(listing, a2).err
  {
  }

  /** How `run` ends and the zones it asked to delete. */
  datatype Outcome = Outcome(end: Termination, deletes: seq<string>)

  /** `run`: a build error is returned; otherwise one zone or all of them, and no error. */
  function Run(zoneId: string, build: Option<Error>, listing: Result<seq<string>, Error>, answer: string -> Option<Error>)
    : (r: Outcome)
    ensures build.Some? ==> r == Outcome(Returned(build), [])
    ensures build.None? && zoneId != "" ==> r == Outcome(Returned(None), [zoneId])
    ensures build.None? && zoneId == "" ==>
              && r.end == Returned(None)
              && r.deletes == (if listing.Success? then listing.value else [])
  {
    if build.Some? then Outcome(Returned(build), [])
    else if zoneId != "" then
      var _ := DeleteHostedZoneId(zoneId, answer(zoneId));
      Outcome(Returned(None), [zoneId])
    else
      var sweep := DeleteAllHostedZones(listing, answer);
      Outcome(Returned(None), sweep.attempted)
  }
}

=== FILE: delete_snapshots.dfy ===
/**
 * `delete snapshots` (cmd/del/snapshots/cmd.go): the error dispatch of
 * `deleteSnapshot`, the page loop of `describeSnapshots`, and the three
 * branches of `run` (all regions, one snapshot id, the configured region).
 *
 * The nested image deletion, which the source starts by setting the flags
 * of the `delete images` command and calling its `RunE`, is a direct call
 * of that command's model.
 */
module DeleteSnapshots {
  import opened Wrappers
  import opened Errors
  import opened Paging
  import opened Seqs
  import AmiId
  import DeleteImages

  const InvalidSnapshotInUse: string := "InvalidSnapshot.InUse"
  const DryRunOperation: string := "DryRunOperation"

  /** Context of the error returned when the retried delete fails. */
  const RetryFailed: string := "Unable to delete snapshot: "

  datatype Snapshot = Snapshot(snapshotId: string)

  /** A remote call that changes (or, under dry-run, validates a change of) remote state. */
  datatype Call =
    | DeleteSnapshotCall(snapshotId: string, dryRun: bool)
    | DeleteImageCall(imageId: string, dryRun: bool)

  /**
   * The answers `deleteSnapshot` may receive, in call order: the first
   * DeleteSnapshot; the nested `delete images` run's client build,
   * DescribeRegions and DeregisterImage; the retried DeleteSnapshot.
   * Only as many are consulted as calls are made.
   */
  datatype DeleteAnswers = DeleteAnswers(
    first: Option<Error>,
    imageBuild: Option<Error>,
    imageRegions: Result<seq<DeleteImages.RegionImages>, Error>,
    image: Option<Error>,
    retry: Option<Error>)

  /** The error `deleteSnapshot` returns and the calls it made, in order. */
  datatype Deletion = Deletion(err: Option<Error>, calls: seq<Call>)

  predicate HasCode(e: Option<Error>, code: string) {
    e.Some? && e.value.AwsError? && e.value.code == code
  }

  /** The first answer is an in-use error whose message names an image. */
  predicate InUseWithImage(first: Option<Error>) {
    HasCode(first, InvalidSnapshotInUse) && AmiId.ParseImageId(first.value.message).Success?
  }

  /** The nested `delete images` run gets as far as deregistering: its client builds and its regions are described. */
  predicate ImageRunStarts(answers: DeleteAnswers) {
    answers.imageBuild.None? && answers.imageRegions.Success?
  }

  /** The nested run's own calls, as calls of this command. */
  function ImageCalls(calls: seq<DeleteImages.DeregisterCall>): (r: seq<Call>)
    ensures |r| == |calls| && forall k | 0 <= k < |calls| :: r[k] == DeleteImageCall(calls[k].imageId, calls[k].dryRun)
  {
    seq(|calls|, k requires 0 <= k < |calls| => DeleteImageCall(calls[k].imageId, calls[k].dryRun))
  }

  /** `deleteSnapshot(awsClient, cmd, reporter, snapshot, dryRun)` with `--delete-backing-image` as `force`. */
  function DeleteSnapshot(snapshotId: string, dryRun: bool, force: bool, answers: DeleteAnswers): (r: Deletion)
    // one DeleteSnapshot call comes first, always with the snapshot's input
    ensures 1 <= |r.calls| <= 3 && r.calls[0] == DeleteSnapshotCall(snapshotId, dryRun)
    // success and a dry-run confirmation both return nil after that one call
    ensures answers.first.None? || HasCode(answers.first, DryRunOperation) ==> r == Deletion(None, r.calls[..1])
    // any other error, AWS or not, is returned unchanged
    ensures (answers.first.Some? && !HasCode(answers.first, InvalidSnapshotInUse) && !HasCode(answers.first, DryRunOperation))
              ==> r == Deletion(answers.first, r.calls[..1])
    // in use, but no image id in the message: the parse error, nothing more
    ensures HasCode(answers.first, InvalidSnapshotInUse) && !InUseWithImage(answers.first) ==>
              r == Deletion(Some(AmiId.ParseImageId(answers.first.value.message).error), r.calls[..1])
    // in use without the force flag: nil, nothing more
    ensures InUseWithImage(answers.first) && !force ==> r == Deletion(None, r.calls[..1])
    // in use with the force flag: a nested run that fails before deregistering returns its error and stops everything ...
    ensures InUseWithImage(answers.first) && force && !ImageRunStarts(answers) ==>
              r == Deletion(Some(Plain(if answers.imageBuild.Some? then DeleteImages.BuildFailed else DeleteImages.RegionsFailed)),
                            r.calls[..1])
    // ... otherwise the named image is deregistered with the same dry-run value, its answer is
    // dropped, and the same delete is retried exactly once, its failure returned
    ensures InUseWithImage(answers.first) && force && ImageRunStarts(answers) ==>
              && |r.calls| == 3
              && r.calls[1] == DeleteImageCall(AmiId.ParseImageId(answers.first.value.message).value, dryRun)
              && r.calls[2] == r.calls[0]
              && r.err == (if answers.retry.None? then None else Some(Wrapped(RetryFailed, answers.retry.value)))
  {
    var delete := DeleteSnapshotCall(snapshotId, dryRun);
    match answers.first
    case None => Deletion(None, [delete])
    case Some(e) =>
      if !e.AwsError? then Deletion(Some(e), [delete])
      else if e.code == InvalidSnapshotInUse then
        match AmiId.ParseImageId(e.message)
        case Failure(parseErr) => Deletion(Some(parseErr), [delete])
        case Success(imageId) =>
          if !force then Deletion(None, [delete])
          else
            // `delete images` with `--image-id` and `--dry-run` set
            var nested := DeleteImages.Run(imageId, dryRun, answers.imageBuild, answers.imageRegions, answers.image);
            var calls := [delete] + ImageCalls(nested.calls);
            if nested.end.Returned? && nested.end.err.Some? then Deletion(nested.end.err, calls)
            else if answers.retry.None? then Deletion(None, calls + [delete])
            else Deletion(Some(Wrapped(RetryFailed, answers.retry.value)), calls + [delete])
      else if e.code == DryRunOperation then Deletion(None, [delete])
      else Deletion(Some(e), [delete])
  }

  /** The only way to reach images, and to delete a snapshot twice, is the force flag after an in-use error. */
  lemma OnlyForceReachesImages(snapshotId: string, dryRun: bool, force: bool, answers: DeleteAnswers)
    ensures |DeleteSnapshot(snapshotId, dryRun, force, answers).calls| > 1 <==>
              force && InUseWithImage(answers.first) && ImageRunStarts(answers)
    ensures |DeleteSnapshot(snapshotId, dryRun, force, answers).calls| == 3 <==>
              force && InUseWithImage(answers.first) && ImageRunStarts(answers)
  {
  }

  /** The nested run drops its deregistration error, so that answer never changes what `deleteSnapshot` does. */
  lemma ImageAnswerIgnored(snapshotId: string, dryRun: bool, force: bool, answers: DeleteAnswers, image: Option<Error>)
    ensures DeleteSnapshot(snapshotId, dryRun, force, answers.(image := image)) == DeleteSnapshot(snapshotId, dryRun, force, answers)
  {
  }

  /** The scenario of an in-use snapshot whose forced retry still fails: no further action. */
  lemma InUseForcedRetryFails(snapshotId: string, dryRun: bool, imageErr: Option<Error>, retryErr: Error)
    ensures DeleteSnapshot(snapshotId, dryRun, true,
                           DeleteAnswers(Some(AwsError(InvalidSnapshotInUse, AmiId.InUseMessage)), None, Success([]), imageErr, Some(retryErr)))
            == Deletion(Some(Wrapped(RetryFailed, retryErr)),
                        [DeleteSnapshotCall(snapshotId, dryRun),
                         DeleteImageCall(AmiId.InUseImage, dryRun),
                         DeleteSnapshotCall(snapshotId, dryRun)])
  {
    AmiId.InUseScenario();
  }

  /** The command's flags; `region` is the global `--region`. */
  datatype Flags = Flags(allRegions: bool, dryRun: bool, deleteBackingImage: bool, snapshotId: string, region: string)

  /** One region as the all-regions loop meets it: its client's build error and its snapshot pages. */
  datatype RegionSnapshots = RegionSnapshots(name: string, clientErr: Option<Error>, pages: Pages<Snapshot>)

  /** Everything the remote side answers during one run. */
  datatype Remote = Remote(
    build: Option<Error>,                          // building the first client
    regions: Result<seq<RegionSnapshots>, Error>,  // DescribeRegions
    byId: Result<seq<Snapshot>, Error>,            // DescribeSnapshots for --snapshot-id
    pages: Pages<Snapshot>,                        // the first client's self-owned snapshot pages
    answers: string -> DeleteAnswers)              // the delete answers, per snapshot id

  /** What a run leaves behind: the calls made and the snapshots found. */
  datatype Progress = Progress(calls: seq<Call>, snapshots: seq<Snapshot>)

  datatype RunResult = RunResult(end: Termination, progress: Progress, noneFound: bool)

  /** `describeSnapshots`: every self-owned page in order, or the paging error with nothing. */
  function DescribeSnapshots(pages: Pages<Snapshot>): (r: Result<seq<Snapshot>, Error>)
    ensures r.Success? <==> FailureOf(pages).None?
    ensures r.Success? ==> r.value == Flatten(Delivered(pages))
    ensures r.Failure? ==> r.error == FailureOf(pages).value
  {
    DrainIsFlatten(pages);
    var d := Drain(pages);
    if d.err.Some? then Failure(d.err.value) else Success(d.items)
  }

  /** The calls `deleteSnapshot` makes for each snapshot of `ss`, one list per snapshot. */
  function PerSnapshot(ss: seq<Snapshot>, f: Flags, answers: string -> DeleteAnswers): seq<seq<Call>> {
    seq(|ss|, k requires 0 <= k < |ss| =>
      DeleteSnapshot(ss[k].snapshotId, f.dryRun, f.deleteBackingImage, answers(ss[k].snapshotId)).calls)
  }

  /** One `deleteSnapshot` per snapshot, in order; each result is dropped. */
  function DeleteEach(ss: seq<Snapshot>, f: Flags, answers: string -> DeleteAnswers): (r: seq<Call>)
    ensures r == Flatten(PerSnapshot(ss, f, answers))
    ensures |ss| <= |r| <= 3 * |ss|
  {
    if ss == [] then []
    else
      var d := DeleteSnapshot(ss[0].snapshotId, f.dryRun, f.deleteBackingImage, answers(ss[0].snapshotId));
      assert PerSnapshot(ss, f, answers)[1..] == PerSnapshot(ss[1..], f, answers);
      d.calls + DeleteEach(ss[1..], f, answers)
  }

  /** Deleting two runs of snapshots one after the other makes the calls of both, in order. */
  lemma {:induction false} DeleteEachAppend(a: seq<Snapshot>, b: seq<Snapshot>, f: Flags, answers: string -> DeleteAnswers)
    ensures DeleteEach(a + b, f, answers) == DeleteEach(a, f, answers) + DeleteEach(b, f, answers)
    decreases |a|
  {
    if a != [] {
      assert (a + b)[0] == a[0];
      assert (a + b)[1..] == a[1..] + b;
      DeleteEachAppend(a[1..], b, f, answers);
      var d := DeleteSnapshot(a[0].snapshotId, f.dryRun, f.deleteBackingImage, answers(a[0].snapshotId));
      assert DeleteEach(a + b, f, answers) == d.calls + DeleteEach(a[1..] + b, f, answers);
      assert DeleteEach(a, f, answers) == d.calls + DeleteEach(a[1..], f, answers);
      Associative(d.calls, DeleteEach(a[1..], f, answers), DeleteEach(b, f, answers));
    } else {
      assert a + b == b;
    }
  }

  /** A region the all-regions loop passes through: its client builds and its snapshots are described. */
  predicate Passes(region: RegionSnapshots) {
    region.clientErr.None? && FailureOf(region.pages).None?
  }

  /** The index of the first region that does not pass, or `|regions|`. */
  function FirstFailing(regions: seq<RegionSnapshots>): (n: nat)
    ensures n <= |regions|
    ensures forall k | 0 <= k < n :: Passes(regions[k])
    ensures n < |regions| ==> !Passes(regions[n])
  {
    if regions == [] || !Passes(regions[0]) then 0 else 1 + FirstFailing(regions[1..])
  }

  /** The snapshots the first `n` regions hold, region by region. */
  function FoundIn(regions: seq<RegionSnapshots>, n: nat): seq<Snapshot>
    requires n <= |regions|
  {
    if n == 0 then [] else Flatten(Delivered(regions[0].pages)) + FoundIn(regions[1..], n - 1)
  }

  /**
   * How the region loop over `regions`, started after the progress `acc`,
   * ends: the first region that does not pass stops it (a crash on a client
   * error, else the paging error is returned), the snapshots before that
   * region are appended to `acc`'s, and if `acc`'s calls are the deletions of
   * its snapshots, so are the final ones.
   */
  predicate Swept(f: Flags, regions: seq<RegionSnapshots>, answers: string -> DeleteAnswers, acc: Progress,
                  r: (Option<Termination>, Progress)) {
    var n := FirstFailing(regions);
    && (r.0.None? <==> n == |regions|)
    && (n < |regions| ==>
          r.0 == Some(if regions[n].clientErr.Some? then Crashed else Returned(FailureOf(regions[n].pages))))
    && r.1.snapshots == acc.snapshots + FoundIn(regions, n)
    && (acc.calls == DeleteEach(acc.snapshots, f, answers) ==> r.1.calls == DeleteEach(r.1.snapshots, f, answers))
  }

  /** A passing first region adds its snapshots and their deletions, and the rest decides the end. */
  lemma SweptStep(f: Flags, regions: seq<RegionSnapshots>, answers: string -> DeleteAnswers, acc: Progress,
                  r: (Option<Termination>, Progress))
    requires regions != [] && Passes(regions[0])
    requires var ss := Flatten(Delivered(regions[0].pages));
             Swept(f, regions[1..], answers, Progress(acc.calls + DeleteEach(ss, f, answers), acc.snapshots + ss), r)
    ensures Swept(f, regions, answers, acc, r)
  {
    var ss := Flatten(Delivered(regions[0].pages));
    var n := FirstFailing(regions);
    assert n == 1 + FirstFailing(regions[1..]);
    assert n < |regions| ==> regions[n] == regions[1..][n - 1];
    assert FoundIn(regions, n) == ss + FoundIn(regions[1..], n - 1);
    Associative(acc.snapshots, ss, FoundIn(regions[1..], n - 1));
    DeleteEachAppend(acc.snapshots, ss, f, answers);
  }

  /** Describe and delete the snapshots of `regions[0]`, then of the next regions, after the progress `acc`. */
  function AllRegions(f: Flags, regions: seq<RegionSnapshots>, answers: string -> DeleteAnswers, acc: Progress)
    : (r: (Option<Termination>, Progress))
    decreases |regions|
    // the first region that does not pass ends the loop, and every snapshot found is handed to `deleteSnapshot` once, in order
    ensures Swept(f, regions, answers, acc, r)
  {
    if regions == [] then (None, acc)
    else
      var region := regions[0];
      if region.clientErr.Some? then (Some(Crashed), acc)
      else match DescribeSnapshots(region.pages)
        case Failure(e) => (Some(Returned(Some(e))), acc)
        case Success(ss) =>
          var r := AllRegions(f, regions[1..], answers, Progress(acc.calls + DeleteEach(ss, f, answers), acc.snapshots + ss));
          SweptStep(f, regions, answers, acc, r);
          r
  }

  /** The branch taken when neither --all-regions nor --snapshot-id is given and a region is set. */
  predicate SingleRegion(f: Flags) {
    f.snapshotId == "" && f.region != "" && !f.allRegions
  }

  /** The --all-regions stage of `run`, from no progress. */
  function SweepStage(f: Flags, remote: Remote): (r: (Option<Termination>, Progress))
    ensures !f.allRegions ==> r == (None, Progress([], []))
    ensures f.allRegions && remote.regions.Failure? ==> r == (Some(Returned(Some(remote.regions.error))), Progress([], []))
    ensures f.allRegions && remote.regions.Success? ==> Swept(f, remote.regions.value, remote.answers, Progress([], []), r)
    // the same, spelled out for `run`
    ensures f.allRegions && remote.regions.Success? && FirstFailing(remote.regions.value) < |remote.regions.value| ==>
              var n := FirstFailing(remote.regions.value);
              var region := remote.regions.value[n];
              && r.0 == Some(if region.clientErr.Some? then Crashed else Returned(FailureOf(region.pages)))
              && r.1.snapshots == FoundIn(remote.regions.value, n)
    ensures f.allRegions && remote.regions.Success? && FirstFailing(remote.regions.value) == |remote.regions.value| ==>
              r.0.None? && r.1.snapshots == FoundIn(remote.regions.value, |remote.regions.value|)
    ensures r.1.calls == DeleteEach(r.1.snapshots, f, remote.answers)
  {
    if !f.allRegions then (None, Progress([], []))
    else match remote.regions
      case Failure(e) => (Some(Returned(Some(e))), Progress([], []))
      case Success(regions) => AllRegions(f, regions, remote.answers, Progress([], []))
  }

  /** The --snapshot-id stage of `run`, after the progress `acc`. */
  function ByIdStage(f: Flags, remote: Remote, acc: Progress): (r: (Option<Termination>, Progress))
    ensures f.snapshotId == "" ==> r == (None, acc)
    ensures f.snapshotId != "" && remote.byId.Failure? ==> r == (Some(Returned(Some(remote.byId.error))), acc)
    ensures f.snapshotId != "" && remote.byId.Success? ==>
              r.0.None? && r.1.snapshots == acc.snapshots + remote.byId.value
    // the snapshots of the id are deleted after those found before, in order
    ensures acc.calls == DeleteEach(acc.snapshots, f, remote.answers) ==>
              r.1.calls == DeleteEach(r.1.snapshots, f, remote.answers)
  {
    if f.snapshotId == "" then (None, acc)
    else match remote.byId
      case Failure(e) => (Some(Returned(Some(e))), acc)
      case Success(ss) =>
        DeleteEachAppend(acc.snapshots, ss, f, remote.answers);
        (None, Progress(acc.calls + DeleteEach(ss, f, remote.answers), acc.snapshots + ss))
  }

  /** `run`. */
  function Run(f: Flags, remote: Remote): (r: RunResult)
    ensures remote.build.Some? ==> r == RunResult(Returned(remote.build), Progress([], []), false)
    // a failed DescribeRegions is returned before anything is deleted
    ensures remote.build.None? && f.allRegions && remote.regions.Failure? ==>
              r == RunResult(Returned(Some(remote.regions.error)), Progress([], []), false)
    // the all-regions loop stops at the first region that does not pass, with what it found before it
    ensures remote.build.None? && f.allRegions && remote.regions.Success? &&
            FirstFailing(remote.regions.value) < |remote.regions.value| ==>
              var n := FirstFailing(remote.regions.value);
              var region := remote.regions.value[n];
              && r.end == (if region.clientErr.Some? then Crashed else Returned(FailureOf(region.pages)))
              && r.progress.snapshots == FoundIn(remote.regions.value, n)
    // once every region passes (or the regions are not swept), the snapshot-id branch decides the end,
    // and the snapshots found are those of every region, then those of the id
    ensures remote.build.None? && !SingleRegion(f) &&
            (f.allRegions ==> remote.regions.Success? && FirstFailing(remote.regions.value) == |remote.regions.value|) ==>
              var swept := if f.allRegions then FoundIn(remote.regions.value, |remote.regions.value|) else [];
              if f.snapshotId != "" && remote.byId.Failure? then
                r.end == Returned(Some(remote.byId.error)) && r.progress.snapshots == swept
              else
                && r.end == Returned(None)
                && r.progress.snapshots == swept + (if f.snapshotId != "" then remote.byId.value else [])
    // the configured-region branch ends as its describe does, with the region's snapshots
    ensures remote.build.None? && SingleRegion(f) ==>
              && r.end == Returned(FailureOf(remote.pages))
              && (FailureOf(remote.pages).None? ==> r.progress.snapshots == Flatten(Delivered(remote.pages)))
    // outside the configured-region branch every snapshot found is handed to `deleteSnapshot` once, in order
    ensures !SingleRegion(f) ==> r.progress.calls == DeleteEach(r.progress.snapshots, f, remote.answers)
    // a run that returns nil says "none found" exactly when it found nothing
    ensures r.end.Returned? && r.end.err.None? ==> r.noneFound == (r.progress.snapshots == [])
  {
    if remote.build.Some? then RunResult(Returned(remote.build), Progress([], []), false)
    else
      var (stop, acc) := SweepStage(f, remote);
      if stop.Some? then RunResult(stop.value, acc, false)
      else
        var (stop, acc) := ByIdStage(f, remote, acc);
        if stop.Some? then RunResult(stop.value, acc, false)
        else if SingleRegion(f) then
          match DescribeSnapshots(remote.pages)
          case Failure(e) => RunResult(Returned(Some(e)), acc, false)
          case Success(ss) => RunResult(Returned(None), acc.(snapshots := ss), ss == [])
        else RunResult(Returned(None), acc, acc.snapshots == [])
  }

  /** The configured-region branch only describes: no snapshot is deleted. */
  lemma SingleRegionOnlyDescribes(f: Flags, remote: Remote)
    requires SingleRegion(f)
    ensures Run(f, remote).progress.calls == []
    ensures remote.build.None? && FailureOf(remote.pages).None? ==>
              Run(f, remote).end == Returned(None)
              && Run(f, remote).progress.snapshots == Flatten(Delivered(remote.pages))
  {
  }

  /** The region loop's end and the snapshots it finds do not depend on what the deletions answer. */
  lemma AllRegionsIgnoresAnswers(f: Flags, regions: seq<RegionSnapshots>,
                               a1: string -> DeleteAnswers, a2: string -> DeleteAnswers,
                               acc1: Progress, acc2: Progress)
    requires acc1.snapshots == acc2.snapshots
    ensures AllRegions(f, regions, a1, acc1).0 == AllRegions(f, regions, a2, acc2).0
    ensures AllRegions(f, regions, a1, acc1).1.snapshots == AllRegions(f, regions, a2, acc2).1.snapshots
  {
  }

  /** The result of every `deleteSnapshot` is ignored: how a run ends does not depend on it. */
  lemma RunIgnoresDeleteResults(f: Flags, remote: Remote, answers: string -> DeleteAnswers)
    ensures Run(f, remote.(answers := answers)).end == Run(f, remote).end
    ensures Run(f, remote.(answers := answers)).progress.snapshots == Run(f, remote).progress.snapshots
  {
    if remote.regions.Success? {
      AllRegionsIgnoresAnswers(f, remote.regions.value, answers, remote.answers,
                               Progress([], []), Progress([], []));
    }
  }
}

=== FILE: ec2.dfy ===
/**
 * The EC2 records the instance commands read (cmd/del/ec2/cmd.go and
 * cmd/list/ec2/cmd.go), and the running-instance filter both apply.
 */
module Ec2 {

  const Running: string := "running"

  datatype Tag = Tag(key: string, value: string)

  datatype Instance = Instance(instanceId: string, state: string, tags: seq<Tag>)

  /** A reservation groups the instances of one launch. */
  datatype Reservation = Reservation(instances: seq<Instance>)

  predicate IsRunning(i: Instance) {
    i.state == Running
  }

  /** Every reservation's instances, reservation by reservation. */
  function InstancesOf(rs: seq<Reservation>): seq<Instance> {
    if rs == [] then [] else rs[0].instances + InstancesOf(rs[1..])
  }

  /** No instance is lost or invented by flattening the reservations. */
  lemma {:induction false} InstancesOfMembers(rs: seq<Reservation>, x: Instance)
    ensures x in InstancesOf(rs) <==> exists i | 0 <= i < |rs| :: x in rs[i].instances
  {
    if rs != [] {
      InstancesOfMembers(rs[1..], x);
      if x in InstancesOf(rs[1..]) {
        var i :| 0 <= i < |rs[1..]| && x in rs[1..][i].instances;
        assert x in rs[i + 1].instances;
      }
      if exists i | 0 <= i < |rs| :: x in rs[i].instances {
        var i :| 0 <= i < |rs| && x in rs[i].instances;
        if i > 0 {
          assert x in rs[1..][i - 1].instances;
        }
      }
    }
  }

  lemma {:induction false} InstancesOfAppend(a: seq<Reservation>, b: seq<Reservation>)
    ensures InstancesOf(a + b) == InstancesOf(a) + InstancesOf(b)
  {
    if a == [] {
      assert a + b == b;
    } else {
      assert (a + b)[1..] == a[1..] + b;
      InstancesOfAppend(a[1..], b);
    }
  }

  /** The running instances, in their original order. */
  function RunningOnly(xs: seq<Instance>): (r: seq<Instance>)
    ensures |r| <= |xs|
    ensures forall x | x in r :: x in xs && IsRunning(x)
    ensures forall x | x in xs && IsRunning(x) :: x in r
  {
    if xs == [] then []
    else if IsRunning(xs[0]) then [xs[0]] + RunningOnly(xs[1..])
    else RunningOnly(xs[1..])
  }

  /** Filtering distributes over concatenation, so order is kept. */
  lemma {:induction false} RunningOnlyAppend(a: seq<Instance>, b: seq<Instance>)
    ensures RunningOnly(a + b) == RunningOnly(a) + RunningOnly(b)
  {
    if a == [] {
      assert a + b == b;
    } else {
      assert (a + b)[1..] == a[1..] + b;
      RunningOnlyAppend(a[1..], b);
    }
  }

  function InstanceIds(xs: seq<Instance>): (r: seq<string>)
    ensures |r| == |xs| && forall i | 0 <= i < |xs| :: r[i] == xs[i].instanceId
  {
    seq(|xs|, i requires 0 <= i < |xs| => xs[i].instanceId)
  }
}

=== FILE: errors.dfy ===
/** The error values the commands pass around. */
module Errors {

  /** A Go `error` as the commands observe it. */
  datatype Error =
    | AwsError(code: string, message: string)   // an `awserr.Error` produced by the SDK
    | Plain(message: string)                   // an error built from a message alone
    | Wrapped(context: string, cause: Error)   // `fmt.Errorf`/`reporter.Errorf` of a message and "%s" of a cause

  /** The error at the bottom of a chain of wrappings. */
  function Root(e: Error): (r: Error)
    ensures !r.Wrapped?
    ensures !e.Wrapped? ==> r == e
  {
    match e
    case Wrapped(_, cause) => Root(cause)
    case _ => e
  }
}

=== FILE: list_ec2.dfy ===
/**
 * `list ec2` (cmd/list/ec2/cmd.go): count the running instances of every
 * region and, with `--instance-names`, print each one's name.
 */
module ListEc2 {
  import opened Wrappers
  import opened Errors
  import opened Paging
  import opened Ec2

  const NameKey: string := "Name"
  const NoTags: string := "Instance has no tags"
  const NoNameTag: string := "Instance has no tag \"Name\""

  /** The index of the first tag keyed "Name", if any. */
  function FindNameTag(tags: seq<Tag>): (r: Option<nat>)
    ensures r.Some? ==> r.value < |tags| && tags[r.value].key == NameKey
    ensures r.Some? ==> forall k | 0 <= k < r.value :: tags[k].key != NameKey
    ensures r.None? ==> forall k | 0 <= k < |tags| :: tags[k].key != NameKey
  {
    if tags == [] then None
    else if tags[0].key == NameKey then Some(0)
    else match FindNameTag(tags[1..])
      case None => None
      case Some(k) => Some(k + 1)
  }

  /** `getInstanceName`: the value of the first "Name" tag, or which of the two notes applies. */
  function GetInstanceName(tags: seq<Tag>): (r: string)
    ensures tags == [] ==> r == NoTags
    ensures tags != [] && (forall k | 0 <= k < |tags| :: tags[k].key != NameKey) ==> r == NoNameTag
    ensures (exists k | 0 <= k < |tags| :: tags[k].key == NameKey) ==>
              exists k | 0 <= k < |tags| ::
                && tags[k].key == NameKey
                && (forall j | 0 <= j < k :: tags[j].key != NameKey)
                && r == tags[k].value
  {
    if |tags| == 0 then NoTags
    else match FindNameTag(tags)
      case Some(k) => tags[k].value
      case None => NoNameTag
  }

  /** A tag before the first "Name" tag does not change the name. */
  lemma OtherTagFirst(t: Tag, tags: seq<Tag>)
    requires t.key != NameKey && tags != []
    ensures GetInstanceName([t] + tags) == GetInstanceName(tags)
  {
    assert ([t] + tags)[1..] == tags;
  }

  /** With several "Name" tags, the first one wins. */
  lemma FirstNameTagWins(a: string, b: string)
    ensures GetInstanceName([Tag(NameKey, a), Tag(NameKey, b)]) == a
  {
  }

  /** The names printed for a sequence of running instances, in order. */
  function NamesOf(xs: seq<Instance>): (r: seq<string>)
    ensures |r| == |xs| && forall k | 0 <= k < |xs| :: r[k] == GetInstanceName(xs[k].tags)
  {
    seq(|xs|, k requires 0 <= k < |xs| => GetInstanceName(xs[k].tags))
  }

  lemma NamesOfAppend(a: seq<Instance>, b: seq<Instance>)
    ensures NamesOf(a + b) == NamesOf(a) + NamesOf(b)
  {
  }

  /** Reading one more instance appends it to the running list exactly when it is running. */
  lemma RunningStep(xs: seq<Instance>, j: nat)
    requires j < |xs|
    ensures RunningOnly(xs[..j + 1]) == RunningOnly(xs[..j]) + (if IsRunning(xs[j]) then [xs[j]] else [])
  {
    assert xs[..j + 1] == xs[..j] + [xs[j]];
    RunningOnlyAppend(xs[..j], [xs[j]]);
    assert RunningOnly([xs[j]]) == (if IsRunning(xs[j]) then [xs[j]] else []);
  }

  lemma NamesStep(xs: seq<Instance>, j: nat)
    requires j < |xs|
    ensures |RunningOnly(xs[..j + 1])| == |RunningOnly(xs[..j])| + (if IsRunning(xs[j]) then 1 else 0)
    ensures NamesOf(RunningOnly(xs[..j + 1]))
            == NamesOf(RunningOnly(xs[..j])) + (if IsRunning(xs[j]) then [GetInstanceName(xs[j].tags)] else [])
  {
    RunningStep(xs, j);
    NamesOfAppend(RunningOnly(xs[..j]), if IsRunning(xs[j]) then [xs[j]] else []);
  }

  /** What the inner loop has accumulated after reading the first `j` instances. */
  predicate Tally(xs: seq<Instance>, j: nat, instanceNames: bool, count: nat, names: seq<string>)
    requires j <= |xs|
  {
    && count == |RunningOnly(xs[..j])|
    && names == (if instanceNames then NamesOf(RunningOnly(xs[..j])) else [])
  }

  lemma TallyStep(xs: seq<Instance>, j: nat, instanceNames: bool, count: nat, names: seq<string>)
    requires j < |xs| && Tally(xs, j, instanceNames, count, names)
    ensures Tally(xs, j + 1, instanceNames,
                  if IsRunning(xs[j]) then count + 1 else count,
                  if IsRunning(xs[j]) && instanceNames then names + [GetInstanceName(xs[j].tags)] else names)
  {
    NamesStep(xs, j);
  }

  /** The inner loop over one reservation's instances. */
  method ListInstances(xs: seq<Instance>, instanceNames: bool) returns (count: nat, names: seq<string>)
    ensures count == |RunningOnly(xs)|
    ensures instanceNames ==> names == NamesOf(RunningOnly(xs))
    ensures !instanceNames ==> names == []
  {
    count := 0;
    names := [];
    var j := 0;
    while j < |xs|
      invariant 0 <= j <= |xs|
      invariant Tally(xs, j, instanceNames, count, names)
    {
      var x := xs[j];
      TallyStep(xs, j, instanceNames, count, names);
      // a running instance is counted, and named when the flag is set
      count := if IsRunning(x) then count + 1 else count;
      names := if IsRunning(x) && instanceNames then names + [GetInstanceName(x.tags)] else names;
      j := j + 1;
    }
    assert xs[..j] == xs;
  }

  /** The running instances of one more reservation come after those already seen. */
  lemma RunningPrefix(rs: seq<Reservation>, i: nat)
    requires i < |rs|
    ensures RunningOnly(InstancesOf(rs[..i + 1])) == RunningOnly(InstancesOf(rs[..i])) + RunningOnly(rs[i].instances)
  {
    assert rs[..i + 1] == rs[..i] + [rs[i]];
    InstancesOfAppend(rs[..i], [rs[i]]);
    assert InstancesOf([rs[i]]) == rs[i].instances + InstancesOf([]);
    assert rs[i].instances + [] == rs[i].instances;
    RunningOnlyAppend(InstancesOf(rs[..i]), rs[i].instances);
  }

  lemma NamesPrefix(rs: seq<Reservation>, i: nat)
    requires i < |rs|
    ensures |RunningOnly(InstancesOf(rs[..i + 1]))| == |RunningOnly(InstancesOf(rs[..i]))| + |RunningOnly(rs[i].instances)|
    ensures NamesOf(RunningOnly(InstancesOf(rs[..i + 1])))
            == NamesOf(RunningOnly(InstancesOf(rs[..i]))) + NamesOf(RunningOnly(rs[i].instances))
  {
    RunningPrefix(rs, i);
    NamesOfAppend(RunningOnly(InstancesOf(rs[..i])), RunningOnly(rs[i].instances));
  }

  /**
   * The nested loop over one region's reservations: the running-instance
   * count, and the names when `instanceNames` is set.
   */
  method ListRegion(reservations: seq<Reservation>, instanceNames: bool) returns (count: nat, names: seq<string>)
    ensures count == |RunningOnly(InstancesOf(reservations))|
    ensures instanceNames ==> names == NamesOf(RunningOnly(InstancesOf(reservations)))
    ensures !instanceNames ==> names == []
  {
    count := 0;
    names := [];
    var i := 0;
    while i < |reservations|
      invariant 0 <= i <= |reservations|
      invariant count == |RunningOnly(InstancesOf(reservations[..i]))|
      invariant instanceNames ==> names == NamesOf(RunningOnly(InstancesOf(reservations[..i])))
      invariant !instanceNames ==> names == []
    {
      var r := reservations[i];
      var c, ns := ListInstances(r.instances, instanceNames);
      NamesPrefix(reservations, i);
      count := count + c;
      names := names + ns;
      i := i + 1;
    }
    assert reservations[..i] == reservations;
  }

  /** One region: its client's build error and DescribeInstances' answer. */
  datatype RegionEc2 = RegionEc2(name: string, clientErr: Option<Error>, describe: Result<seq<Reservation>, Error>)

  /** One "Found N running instances in R" line, and the names printed after it (empty when nothing is printed). */
  datatype Report = Report(region: string, count: nat, names: seq<string>)

  datatype Listing = Listing(end: Termination, reports: seq<Report>)

  /** The reference the region loop is measured against: what a region reports. */
  function Expected(instanceNames: bool, region: RegionEc2): Report
    requires region.describe.Success?
  {
    var running := RunningOnly(InstancesOf(region.describe.value));
    Report(region.name, |running|, if instanceNames then NamesOf(running) else [])
  }

  /** A region whose client was built and whose DescribeInstances answered. */
  predicate RegionOk(region: RegionEc2) {
    region.clientErr.None? && region.describe.Success?
  }

  /** The reports so far are those of the first regions, each one as `Expected` says. */
  predicate Matches(instanceNames: bool, regions: seq<RegionEc2>, reports: seq<Report>) {
    && |reports| <= |regions|
    && forall k | 0 <= k < |reports| :: RegionOk(regions[k]) && reports[k] == Expected(instanceNames, regions[k])
  }

  lemma MatchesStep(instanceNames: bool, regions: seq<RegionEc2>, reports: seq<Report>)
    requires Matches(instanceNames, regions, reports) && |reports| < |regions| && RegionOk(regions[|reports|])
    ensures Matches(instanceNames, regions, reports + [Expected(instanceNames, regions[|reports|])])
  {
  }

  /** The region loop; a client error exits 1, a failed DescribeInstances leaves a nil result that is dereferenced. */
  method ListRegions(instanceNames: bool, regions: seq<RegionEc2>) returns (o: Listing)
    ensures o.end == Returned(None) || o.end == Exited(1) || o.end == Crashed
    ensures Matches(instanceNames, regions, o.reports)
    ensures o.end == Returned(None) <==> forall k | 0 <= k < |regions| :: RegionOk(regions[k])
    ensures o.end == Returned(None) ==> |o.reports| == |regions|
    ensures o.end == Exited(1) ==> |o.reports| < |regions| && regions[|o.reports|].clientErr.Some?
    ensures o.end == Crashed ==>
              |o.reports| < |regions| && regions[|o.reports|].clientErr.None? && regions[|o.reports|].describe.Failure?
  {
    var reports: seq<Report> := [];
    var i := 0;
    while i < |regions|
      invariant 0 <= i <= |regions| && |reports| == i
      invariant Matches(instanceNames, regions, reports)
    {
      var region := regions[i];
      if region.clientErr.Some? {
        assert !RegionOk(regions[i]);
        return Listing(Exited(1), reports);
      }
      if region.describe.Failure? {
        assert !RegionOk(regions[i]);
        return Listing(Crashed, reports);
      }
      var count, names := ListRegion(region.describe.value, instanceNames);
      var report := Report(region.name, count, names);
      assert report == Expected(instanceNames, region);
      MatchesStep(instanceNames, regions, reports);
      reports := reports + [report];
      i := i + 1;
    }
    assert forall k | 0 <= k < |regions| :: RegionOk(regions[k]);
    return Listing(Returned(None), reports);
  }

  /** The command's `Run`, with the first client's build error and DescribeRegions' answer given. */
  method Run(instanceNames: bool, build: Option<Error>, regions: Result<seq<RegionEc2>, Error>) returns (o: Listing)
    ensures build.Some? ==> o == Listing(Exited(1), [])
    ensures build.None? && regions.Failure? ==> o == Listing(Exited(1), [])
    // once the regions are described, each report is its region's, in order, until the first bad region
    ensures build.None? && regions.Success? ==> Matches(instanceNames, regions.value, o.reports)
    // the run ends normally iff every region is fine, and then every region is reported
    ensures build.None? && regions.Success? ==>
              && (o.end == Returned(None) <==> forall k | 0 <= k < |regions.value| :: RegionOk(regions.value[k]))
              && (o.end == Returned(None) ==> |o.reports| == |regions.value|)
    // otherwise the first bad region ends it: exit 1 on its client error, a crash on its failed describe
    ensures build.None? && regions.Success? && o.end != Returned(None) ==>
              && |o.reports| < |regions.value|
              && o.end == (if regions.value[|o.reports|].clientErr.Some? then Exited(1) else Crashed)
              && (regions.value[|o.reports|].clientErr.None? ==> regions.value[|o.reports|].describe.Failure?)
    // names are printed for a region exactly when the flag is set and it has running instances
    ensures forall k | 0 <= k < |o.reports| :: (o.reports[k].names != [] <==> instanceNames && o.reports[k].count > 0)
  {
    if build.Some? || regions.Failure? {
      return Listing(Exited(1), []);
    }
    o := ListRegions(instanceNames, regions.value);
  }
}

=== FILE: list_images.dfy ===
/**
 * `list images` (cmd/list/images/cmd.go): describe the account's own images
 * in every region and fold them, mapping by mapping, into the image and
 * snapshot lists `listAllImages` keeps across regions.
 */
module ListImages {
  import opened Wrappers
  import opened Errors
  import opened Paging
  import opened Seqs

  datatype Ebs = Ebs(snapshotId: Option<string>)

  datatype BlockDeviceMapping = BlockDeviceMapping(ebs: Option<Ebs>)

  datatype Image = Image(imageId: string, mappings: seq<BlockDeviceMapping>)

  /** A mapping with an EBS volume that names its snapshot. */
  predicate Qualifies(m: BlockDeviceMapping) {
    m.ebs.Some? && m.ebs.value.snapshotId.Some?
  }

  /** The reference list: the snapshot ids of the qualifying mappings, in mapping order. */
  function SnapshotIdsOf(ms: seq<BlockDeviceMapping>): (r: seq<string>)
    ensures |r| <= |ms|
  {
    if ms == [] then []
    else if Qualifies(ms[0]) then [ms[0].ebs.value.snapshotId.value] + SnapshotIdsOf(ms[1..])
    else SnapshotIdsOf(ms[1..])
  }

  /** The snapshot ids of a sequence of images, image by image. */
  function SnapshotsOf(images: seq<Image>): seq<string> {
    if images == [] then [] else SnapshotIdsOf(images[0].mappings) + SnapshotsOf(images[1..])
  }

  lemma {:induction false} SnapshotsOfAppend(a: seq<Image>, b: seq<Image>)
    ensures SnapshotsOf(a + b) == SnapshotsOf(a) + SnapshotsOf(b)
  {
    if a == [] {
      assert a + b == b;
    } else {
      assert (a + b)[1..] == a[1..] + b;
      SnapshotsOfAppend(a[1..], b);
    }
  }

  lemma {:induction false} BackedOfAppend(a: seq<Image>, b: seq<Image>)
    ensures BackedOf(a + b) == BackedOf(a) + BackedOf(b)
  {
    if a == [] {
      assert a + b == b;
    } else {
      assert (a + b)[1..] == a[1..] + b;
      BackedOfAppend(a[1..], b);
    }
  }

  /** `n` copies of `x`. */
  function Repeat<T>(x: T, n: nat): (r: seq<T>)
    ensures |r| == n && forall k | 0 <= k < n :: r[k] == x
  {
    seq(n, _ => x)
  }

  /** Each image once per qualifying mapping, image by image. */
  function BackedOf(images: seq<Image>): seq<Image> {
    if images == [] then [] else Repeat(images[0], |SnapshotIdsOf(images[0].mappings)|) + BackedOf(images[1..])
  }

  /** The four lists `listAllImages` declares before its region loop. */
  datatype Fold = Fold(
    allImages: seq<Image>,
    snapshotBackedImages: seq<Image>,
    allSnapshotBackedImages: seq<Image>,
    allSnapshots: seq<string>)

  const Empty: Fold := Fold([], [], [], [])

  /** The inner loop over one image's block device mappings. */
  function FoldMappings(st: Fold, image: Image, ms: seq<BlockDeviceMapping>): (r: Fold)
    decreases |ms|
    ensures r.allImages == st.allImages
    ensures r.allSnapshots == st.allSnapshots + SnapshotIdsOf(ms)
    ensures r.snapshotBackedImages == st.snapshotBackedImages + Repeat(image, |SnapshotIdsOf(ms)|)
    ensures r.allSnapshotBackedImages == st.allSnapshotBackedImages + Repeat(image, |SnapshotIdsOf(ms)|)
  {
    if ms == [] then st
    else
      var m := ms[0];
      var st' :=
        if Qualifies(m) then
          Fold(st.allImages, st.snapshotBackedImages + [image], st.allSnapshotBackedImages + [image],
               st.allSnapshots + [m.ebs.value.snapshotId.value])
        else st;
      var r := FoldMappings(st', image, ms[1..]);
      assert Qualifies(m) ==> Repeat(image, 1 + |SnapshotIdsOf(ms[1..])|) == [image] + Repeat(image, |SnapshotIdsOf(ms[1..])|);
      r
  }

  /** One pass of the image loop: the mappings, then the image itself. */
  function FoldImage(st: Fold, image: Image): Fold {
    var st' := FoldMappings(st, image, image.mappings);
    st'.(allImages := st'.allImages + [image])
  }

  /** The image loop over one region's images. */
  function FoldImages(st: Fold, images: seq<Image>): (r: Fold)
    ensures |r.allImages| == |st.allImages| + |images|
    decreases |images|
  {
    if images == [] then st else FoldImages(FoldImage(st, images[0]), images[1..])
  }

  /**
   * Every image appears once, in order; every qualifying mapping adds its
   * snapshot id; the snapshot-backed lists get the image once per such mapping.
   */
  lemma {:induction false} FoldImagesIsReference(st: Fold, images: seq<Image>)
    ensures FoldImages(st, images).allImages == st.allImages + images
    ensures FoldImages(st, images).allSnapshots == st.allSnapshots + SnapshotsOf(images)
    ensures FoldImages(st, images).snapshotBackedImages == st.snapshotBackedImages + BackedOf(images)
    ensures FoldImages(st, images).allSnapshotBackedImages == st.allSnapshotBackedImages + BackedOf(images)
    decreases |images|
  {
    if images != [] {
      var x := images[0];
      var st' := FoldImage(st, x);
      FoldImagesIsReference(st', images[1..]);
      Associative(st.allImages, [x], images[1..]);
      Associative(st.allSnapshots, SnapshotIdsOf(x.mappings), SnapshotsOf(images[1..]));
      Associative(st.snapshotBackedImages, Repeat(x, |SnapshotIdsOf(x.mappings)|), BackedOf(images[1..]));
      Associative(st.allSnapshotBackedImages, Repeat(x, |SnapshotIdsOf(x.mappings)|), BackedOf(images[1..]));
      assert [x] + images[1..] == images;
    }
  }

  /** An image with two snapshot-backed mappings is listed twice as snapshot backed. */
  lemma TwoMappingsTwoEntries(st: Fold, id: string, s1: string, s2: string)
    ensures var image := Image(id, [BlockDeviceMapping(Some(Ebs(Some(s1)))), BlockDeviceMapping(Some(Ebs(Some(s2))))]);
            && FoldImage(st, image).snapshotBackedImages == st.snapshotBackedImages + [image, image]
            && FoldImage(st, image).allSnapshots == st.allSnapshots + [s1, s2]
  {
    var image := Image(id, [BlockDeviceMapping(Some(Ebs(Some(s1)))), BlockDeviceMapping(Some(Ebs(Some(s2))))]);
    assert SnapshotIdsOf(image.mappings) == [s1, s2];
    assert Repeat(image, 2) == [image, image];
  }

  /** A mapping without EBS, or with EBS but no snapshot id, contributes nothing. */
  lemma UnbackedMappingsIgnored(st: Fold, id: string)
    ensures var image := Image(id, [BlockDeviceMapping(None), BlockDeviceMapping(Some(Ebs(None)))]);
            FoldImage(st, image) == st.(allImages := st.allImages + [image])
  {
    var image := Image(id, [BlockDeviceMapping(None), BlockDeviceMapping(Some(Ebs(None)))]);
    assert SnapshotIdsOf(image.mappings) == [];
  }

  /** One region: its client's build error and DescribeImages' answer for owner "self". */
  datatype RegionImages = RegionImages(name: string, clientErr: Option<Error>, describe: Result<seq<Image>, Error>)

  /**
   * What a region with images prints: "Found N images", "Found N snapshot
   * backed images" (the same N), and the snapshot list as accumulated so far.
   * `index` is the region's position in the region list; it is not printed.
   */
  datatype Report = Report(index: nat, region: string, imageCount: nat, snapshotBackedCount: nat, snapshots: seq<string>)

  /** How the traversal ended, the lists it built, what it printed, and the images it described. */
  datatype Traversal = Traversal(end: Termination, fold: Fold, reports: seq<Report>, described: seq<Image>)

  /** The images one region described (a failed describe counts as none). */
  function Described(region: RegionImages): seq<Image> {
    if region.describe.Success? then region.describe.value else []
  }

  /** The images `regions[i..j]` describe, region by region. */
  function ImagesBetween(regions: seq<RegionImages>, i: nat, j: nat): seq<Image>
    requires i <= j <= |regions|
    decreases j - i
  {
    if i == j then [] else Described(regions[i]) + ImagesBetween(regions, i + 1, j)
  }

  /** The images all the regions describe, region by region. */
  function ImagesOf(regions: seq<RegionImages>): seq<Image> {
    ImagesBetween(regions, 0, |regions|)
  }

  /** A region the loop passes through: its client builds and DescribeImages succeeds. */
  predicate Passes(region: RegionImages) {
    region.clientErr.None? && region.describe.Success?
  }

  /** The index of the first region from `i` on that does not pass, or `|regions|`. */
  function FirstFailing(regions: seq<RegionImages>, i: nat): (n: nat)
    requires i <= |regions|
    decreases |regions| - i
    ensures i <= n <= |regions|
    ensures forall k | i <= k < n :: Passes(regions[k])
    ensures n < |regions| ==> !Passes(regions[n])
  {
    if i == |regions| || !Passes(regions[i]) then i else FirstFailing(regions, i + 1)
  }

  /**
   * `st` is `st0` with the images `added` folded in: they are appended, and
   * the snapshot lists grow by exactly those images' reference lists.
   */
  predicate Grows(st0: Fold, added: seq<Image>, st: Fold) {
    && st.allImages == st0.allImages + added
    && st.allSnapshots == st0.allSnapshots + SnapshotsOf(added)
    && st.snapshotBackedImages == st0.snapshotBackedImages + BackedOf(added)
    && st.allSnapshotBackedImages == st0.allSnapshotBackedImages + BackedOf(added)
  }

  lemma GrowsNothing(st: Fold)
    ensures Grows(st, [], st)
  {
    assert st.allImages + [] == st.allImages;
    assert st.allSnapshots + [] == st.allSnapshots;
    assert st.snapshotBackedImages + [] == st.snapshotBackedImages;
    assert st.allSnapshotBackedImages + [] == st.allSnapshotBackedImages;
  }

  lemma GrowsTrans(a: Fold, x: seq<Image>, b: Fold, y: seq<Image>, c: Fold)
    requires Grows(a, x, b) && Grows(b, y, c)
    ensures Grows(a, x + y, c)
  {
    SnapshotsOfAppend(x, y);
    BackedOfAppend(x, y);
    Associative(a.allImages, x, y);
    Associative(a.allSnapshots, SnapshotsOf(x), SnapshotsOf(y));
    Associative(a.snapshotBackedImages, BackedOf(x), BackedOf(y));
    Associative(a.allSnapshotBackedImages, BackedOf(x), BackedOf(y));
  }

  /** `listAllImages` from `regions[i]` on, continuing from `st`. */
  function ListAllImages(regions: seq<RegionImages>, i: nat, st: Fold): (r: Traversal)
    requires i <= |regions|
    decreases |regions| - i
    // the first region that does not pass ends the loop: exit 1 on a client error, else its describe error
    ensures var n := FirstFailing(regions, i);
            && (r.end == Returned(None) <==> n == |regions|)
            && (n < |regions| ==>
                  r.end == (if regions[n].clientErr.Some? then Exited(1) else Returned(Some(regions[n].describe.error))))
            && r.described == ImagesBetween(regions, i, n)
    ensures |r.reports| <= |regions| - i
    // the lists grow by the images described, and by nothing else
    ensures Grows(st, r.described, r.fold)
  {
    if i == |regions| then
      GrowsNothing(st);
      Traversal(Returned(None), st, [], [])
    else
      var region := regions[i];
      if region.clientErr.Some? then
        GrowsNothing(st);
        Traversal(Exited(1), st, [], [])
      else if region.describe.Failure? then
        GrowsNothing(st);
        Traversal(Returned(Some(region.describe.error)), st, [], [])
      else
        var images := region.describe.value;
        var st' := FoldImages(st, images);
        FoldImagesIsReference(st, images);
        var here := if |images| > 0 then [Report(i, region.name, |images|, |images|, st'.allSnapshots)] else [];
        var rest := ListAllImages(regions, i + 1, st');
        GrowsTrans(st, images, st', rest.described, rest.fold);
        Traversal(rest.end, rest.fold, here + rest.reports, images + rest.described)
  }

  /**
   * A report is about a region the loop passed through that has images: it
   * counts them twice, and its snapshot list is `st`'s followed by the
   * snapshots of every region from `i` up to and including its own.
   */
  predicate ReportsRegion(regions: seq<RegionImages>, i: nat, st: Fold, rep: Report)
    requires i <= |regions|
  {
    && i <= rep.index < FirstFailing(regions, i)
    && rep.region == regions[rep.index].name
    && rep.imageCount == |Described(regions[rep.index])| > 0
    && rep.snapshotBackedCount == rep.imageCount
    && rep.snapshots == st.allSnapshots + SnapshotsOf(ImagesBetween(regions, i, rep.index + 1))
  }

  /** The report of a passing region `i` with images satisfies `ReportsRegion` from `i`. */
  lemma ReportHere(regions: seq<RegionImages>, i: nat, st: Fold, st': Fold)
    requires i < |regions| && Passes(regions[i]) && |regions[i].describe.value| > 0
    requires st'.allSnapshots == st.allSnapshots + SnapshotsOf(regions[i].describe.value)
    ensures var images := regions[i].describe.value;
            ReportsRegion(regions, i, st, Report(i, regions[i].name, |images|, |images|, st'.allSnapshots))
  {
    var images := regions[i].describe.value;
    assert FirstFailing(regions, i) == FirstFailing(regions, i + 1);
    assert ImagesBetween(regions, i + 1, i + 1) == [];
    assert ImagesBetween(regions, i, i + 1) == images + [];
    assert images + [] == images;
  }

  /** A report from `i + 1` on, after a passing region `i`, satisfies `ReportsRegion` from `i`. */
  lemma ReportShift(regions: seq<RegionImages>, i: nat, st: Fold, st': Fold, rep: Report)
    requires i < |regions| && Passes(regions[i])
    requires st'.allSnapshots == st.allSnapshots + SnapshotsOf(regions[i].describe.value)
    requires ReportsRegion(regions, i + 1, st', rep)
    ensures ReportsRegion(regions, i, st, rep)
  {
    var images := regions[i].describe.value;
    var later := ImagesBetween(regions, i + 1, rep.index + 1);
    assert FirstFailing(regions, i) == FirstFailing(regions, i + 1);
    assert ImagesBetween(regions, i, rep.index + 1) == images + later;
    SnapshotsOfAppend(images, later);
    Associative(st.allSnapshots, SnapshotsOf(images), SnapshotsOf(later));
  }

  /** Every report satisfies `ReportsRegion` from `i`. */
  predicate AllReport(regions: seq<RegionImages>, i: nat, st: Fold, reports: seq<Report>)
    requires i <= |regions|
  {
    forall k | 0 <= k < |reports| :: ReportsRegion(regions, i, st, reports[k])
  }

  /** The reports come in region order, one per region at most. */
  predicate Increasing(reports: seq<Report>) {
    forall j, k | 0 <= j < k < |reports| :: reports[j].index < reports[k].index
  }

  /** Putting at most one report of an earlier region in front keeps the order. */
  lemma IncreasingStep(here: seq<Report>, rest: seq<Report>, i: nat)
    requires |here| <= 1 && forall k | 0 <= k < |here| :: here[k].index == i
    requires Increasing(rest) && forall k | 0 <= k < |rest| :: rest[k].index > i
    ensures Increasing(here + rest)
  {
    var all := here + rest;
    forall j, k | 0 <= j < k < |all|
      ensures all[j].index < all[k].index
    {
      assert all[k] == rest[k - |here|];
      if j >= |here| {
        assert all[j] == rest[j - |here|];
      }
    }
  }

  /** After a passing region `i`, the reports are its own (when it has images) followed by the rest's. */
  lemma ReportsUnfold(regions: seq<RegionImages>, i: nat, st: Fold)
    requires i < |regions| && Passes(regions[i])
    ensures var images := regions[i].describe.value;
            var st' := FoldImages(st, images);
            && st'.allSnapshots == st.allSnapshots + SnapshotsOf(images)
            && ListAllImages(regions, i, st).reports
               == (if |images| > 0 then [Report(i, regions[i].name, |images|, |images|, st'.allSnapshots)] else [])
                  + ListAllImages(regions, i + 1, st').reports
  {
    FoldImagesIsReference(st, regions[i].describe.value);
  }

  /** The reports after a passing region `i`, its own in front, all satisfy `ReportsRegion` from `i`. */
  lemma AllReportStep(regions: seq<RegionImages>, i: nat, st: Fold, st': Fold, rest: seq<Report>)
    requires i < |regions| && Passes(regions[i])
    requires st'.allSnapshots == st.allSnapshots + SnapshotsOf(regions[i].describe.value)
    requires AllReport(regions, i + 1, st', rest)
    ensures var images := regions[i].describe.value;
            AllReport(regions, i, st,
                      (if |images| > 0 then [Report(i, regions[i].name, |images|, |images|, st'.allSnapshots)] else []) + rest)
  {
    var images := regions[i].describe.value;
    var here := if |images| > 0 then [Report(i, regions[i].name, |images|, |images|, st'.allSnapshots)] else [];
    var reports := here + rest;
    forall k | 0 <= k < |reports|
      ensures ReportsRegion(regions, i, st, reports[k])
    {
      if k >= |here| {
        assert reports[k] == rest[k - |here|];
        ReportShift(regions, i, st, st', rest[k - |here|]);
      } else {
        ReportHere(regions, i, st, st');
      }
    }
  }

  /** Printed snapshot lists are never reset: each region's list holds the snapshots of all regions so far, its own included. */
  lemma {:induction false} ReportsAccumulate(regions: seq<RegionImages>, i: nat, st: Fold)
    requires i <= |regions|
    ensures AllReport(regions, i, st, ListAllImages(regions, i, st).reports)
    decreases |regions| - i
  {
    if i < |regions| && Passes(regions[i]) {
      var st' := FoldImages(st, regions[i].describe.value);
      ReportsUnfold(regions, i, st);
      ReportsAccumulate(regions, i + 1, st');
      AllReportStep(regions, i, st, st', ListAllImages(regions, i + 1, st').reports);
    }
  }

  /** Reports come in region order, at most one per region. */
  lemma {:induction false} ReportsInOrder(regions: seq<RegionImages>, i: nat, st: Fold)
    requires i <= |regions|
    ensures Increasing(ListAllImages(regions, i, st).reports)
    decreases |regions| - i
  {
    if i < |regions| && Passes(regions[i]) {
      var images := regions[i].describe.value;
      var st' := FoldImages(st, images);
      ReportsUnfold(regions, i, st);
      var rest := ListAllImages(regions, i + 1, st');
      ReportsInOrder(regions, i + 1, st');
      ReportsAccumulate(regions, i + 1, st');
      forall k | 0 <= k < |rest.reports|
        ensures rest.reports[k].index > i
      {
        assert ReportsRegion(regions, i + 1, st', rest.reports[k]);
      }
      var here := if |images| > 0 then [Report(i, regions[i].name, |images|, |images|, st'.allSnapshots)] else [];
      IncreasingStep(here, rest.reports, i);
    }
  }

  /** The snapshot-backed list of one region is never reset, so it always equals the all-regions list. */
  lemma BackedListsAgree(regions: seq<RegionImages>)
    ensures ListAllImages(regions, 0, Empty).fold.snapshotBackedImages
            == ListAllImages(regions, 0, Empty).fold.allSnapshotBackedImages
  {
  }

  /** `run`: build, describe regions, then return what `listAllImages` returned. */
  function Run(build: Option<Error>, regions: Result<seq<RegionImages>, Error>): (r: Traversal)
    ensures build.Some? ==> r.end == Returned(build) && r.fold == Empty
    ensures build.None? && regions.Failure? ==> r.end == Returned(Some(regions.error)) && r.fold == Empty
    ensures build.None? && regions.Success? ==> r == ListAllImages(regions.value, 0, Empty)
    // a run that returns nil folded in every image of every region, and exactly their snapshots
    ensures r.end == Returned(None) ==>
              && regions.Success?
              && r.fold.allImages == ImagesOf(regions.value)
              && r.fold.allSnapshots == SnapshotsOf(ImagesOf(regions.value))
  {
    if build.Some? then Traversal(Returned(build), Empty, [], [])
    else if regions.Failure? then Traversal(Returned(Some(regions.error)), Empty, [], [])
    else ListAllImages(regions.value, 0, Empty)
  }
}

=== FILE: list_snapshots.dfy ===
/**
 * `list snapshots` (cmd/list/snapshots/cmd.go): page through the account's
 * own snapshots in every region, print a detail line per snapshot when asked,
 * and a per-region count.
 */
module ListSnapshots {
  import opened Wrappers
  import opened Errors
  import opened Paging
  import opened Seqs

  const BuildFailed: string := "Unable to build AWS client"
  const RegionsFailed: string := "Failed to describe regions"
  const DescribeFailed: string := "Unable to describe snapshots "

  datatype Tag = Tag(key: string, value: string)

  /** A snapshot as the listing reads it; `startTime` is its rendered time stamp. */
  datatype Snapshot = Snapshot(snapshotId: string, startTime: string, tags: seq<Tag>)

  /** The three boolean flags `--snapshot-id`, `--start-time` and `--tags`. */
  datatype Flags = Flags(snapshotId: bool, startTime: bool, tags: bool)

  /** The decimal digits of `n`. */
  function Decimal(n: nat): (r: string)
    ensures |r| >= 1
    decreases n
  {
    var d := ['0', '1', '2', '3', '4', '5', '6', '7', '8', '9'][n % 10];
    if n < 10 then [d] else Decimal(n / 10) + [d]
  }

  /** The loop of `parseTags`: one "k: v" entry per element of `ranged`, from `k` on. */
  function RangeEntries(ranged: seq<string>, k: nat): (r: seq<string>)
    requires k <= |ranged|
    ensures |r| == |ranged| - k
    decreases |ranged| - k
  {
    if k == |ranged| then [] else [Decimal(k) + ": " + ranged[k]] + RangeEntries(ranged, k + 1)
  }

  /**
   * `parseTags`: the loop ranges over its own accumulator, which is empty when
   * the range starts, so nothing is ever appended whatever the tags are.
   */
  function ParseTags(tags: seq<Tag>): (r: seq<string>)
    ensures r == []
  {
    var acc: seq<string> := [];
    acc + RangeEntries(acc, 0)
  }

  /** The fields of a "Snapshot: ..." line, if one is printed. */
  function DetailLine(flags: Flags, s: Snapshot): (r: Option<seq<string>>)
    // a line is printed iff the id or the start-time flag is set
    ensures r.Some? <==> flags.snapshotId || flags.startTime
    // the tags never contribute, so the line has one field per set flag of the other two
    ensures r.Some? ==> |r.value| == (if flags.snapshotId then 1 else 0) + (if flags.startTime then 1 else 0)
    // the id comes first and the start time last
    ensures r.Some? && flags.snapshotId ==> r.value[0] == s.snapshotId
    ensures r.Some? && flags.startTime ==> r.value[|r.value| - 1] == s.startTime
  {
    if flags.snapshotId || flags.startTime then
      var detail: seq<string> := [];
      var detail := if flags.snapshotId then detail + [s.snapshotId] else detail;
      var detail := if flags.startTime then detail + [s.startTime] else detail;
      var detail := if flags.tags then detail + ParseTags(s.tags) else detail;
      Some(detail)
    else None
  }

  lemma TagsFlagHasNoEffect(id: bool, start: bool, s: Snapshot)
    ensures DetailLine(Flags(id, start, true), s) == DetailLine(Flags(id, start, false), s)
  {
    if id || start {
      var empty: seq<string> := [];
      var withId := if id then empty + [s.snapshotId] else empty;
      var withStart := if start then withId + [s.startTime] else withId;
      assert DetailLine(Flags(id, start, true), s) == Some(withStart + ParseTags(s.tags));
      assert DetailLine(Flags(id, start, false), s) == Some(withStart);
      assert withStart + ParseTags(s.tags) == withStart;
    }
  }

  /** One region: its client's build error and its snapshot pages. */
  datatype RegionSnapshots = RegionSnapshots(name: string, clientErr: Option<Error>, pages: Pages<Snapshot>)

  /** A "Found N snapshots in R" line. */
  datatype Found = Found(region: string, count: nat)

  datatype Listing = Listing(end: Termination, available: seq<Snapshot>, details: seq<seq<string>>, found: seq<Found>)

  /** The detail lines of a sequence of snapshots, in order. */
  function DetailsOf(flags: Flags, ss: seq<Snapshot>): (r: seq<seq<string>>)
    ensures |r| == (if flags.snapshotId || flags.startTime then |ss| else 0)
    ensures forall k | 0 <= k < |r| :: DetailLine(flags, ss[k]) == Some(r[k])
  {
    if flags.snapshotId || flags.startTime then seq(|ss|, k requires 0 <= k < |ss| => DetailLine(flags, ss[k]).value)
    else []
  }

  lemma DetailsOfAppend(flags: Flags, a: seq<Snapshot>, b: seq<Snapshot>)
    ensures DetailsOf(flags, a + b) == DetailsOf(flags, a) + DetailsOf(flags, b)
  {
  }

  /** Every region's delivered snapshots, concatenated in region order. */
  function SnapshotsOf(regions: seq<RegionSnapshots>): seq<Snapshot> {
    if regions == [] then [] else Flatten(Delivered(regions[0].pages)) + SnapshotsOf(regions[1..])
  }

  /** A region the loop passes through: its client builds and every page is delivered. */
  predicate Passes(region: RegionSnapshots) {
    region.clientErr.None? && FailureOf(region.pages).None?
  }

  /** The index of the first region that does not pass, or `|regions|`. */
  function FirstFailing(regions: seq<RegionSnapshots>): (n: nat)
    ensures n <= |regions|
    ensures forall k | 0 <= k < n :: Passes(regions[k])
    ensures n < |regions| ==> !Passes(regions[n])
  {
    if regions == [] || !Passes(regions[0]) then 0 else 1 + FirstFailing(regions[1..])
  }

  /** The "Found N snapshots" lines of the given regions, one per region holding snapshots, in order. */
  function FoundOf(regions: seq<RegionSnapshots>): seq<Found> {
    if regions == [] then []
    else
      var count := |Flatten(Delivered(regions[0].pages))|;
      (if count > 0 then [Found(regions[0].name, count)] else []) + FoundOf(regions[1..])
  }

  /**
   * How the region loop ends: the first region that does not pass stops it
   * (exit 1 on its client error, else its paging error wrapped), and the
   * regions before it are listed and counted in order.
   */
  predicate Listed(regions: seq<RegionSnapshots>, r: Listing) {
    var n := FirstFailing(regions);
    && (r.end == Returned(None) <==> n == |regions|)
    && (n < |regions| ==>
          r.end == (if regions[n].clientErr.Some? then Exited(1)
                    else Returned(Some(Wrapped(DescribeFailed, FailureOf(regions[n].pages).value)))))
    && r.available == SnapshotsOf(regions[..n])
    && r.found == FoundOf(regions[..n])
  }

  /** A passing first region puts its snapshots and its count line in front of the rest's. */
  lemma ListedStep(regions: seq<RegionSnapshots>, rest: Listing, details: seq<seq<string>>)
    requires regions != [] && Passes(regions[0]) && Listed(regions[1..], rest)
    ensures var ss := Flatten(Delivered(regions[0].pages));
            var here := if |ss| > 0 then [Found(regions[0].name, |ss|)] else [];
            Listed(regions, Listing(rest.end, ss + rest.available, details, here + rest.found))
  {
    var n := FirstFailing(regions);
    assert n == 1 + FirstFailing(regions[1..]);
    assert n < |regions| ==> regions[n] == regions[1..][n - 1];
    assert regions[..n][0] == regions[0];
    assert regions[..n][1..] == regions[1..][..n - 1];
  }

  /** The region loop from `regions[0]` on. */
  function ListRegions(flags: Flags, regions: seq<RegionSnapshots>): (r: Listing)
    ensures r.end == Returned(None) || r.end == Exited(1) || (r.end.Returned? && r.end.err.Some?)
    // a region client error exits; a paging failure aborts with the wrapped error
    ensures r.end.Returned? && r.end.err.Some? ==>
              r.end.err.value.Wrapped? && r.end.err.value.context == DescribeFailed
    // one detail line per listed snapshot when a detail flag is set
    ensures r.details == DetailsOf(flags, r.available)
    ensures |r.found| <= |regions| && forall k | 0 <= k < |r.found| :: r.found[k].count > 0
    // the first region that does not pass decides the end; the regions before it are listed and counted
    ensures Listed(regions, r)
    decreases |regions|
  {
    if regions == [] then Listing(Returned(None), [], [], [])
    else
      var region := regions[0];
      if region.clientErr.Some? then
        assert regions[..0] == [];
        Listing(Exited(1), [], [], [])
      else
        var drained := Drain(region.pages);
        DrainIsFlatten(region.pages);
        if drained.err.Some? then
          assert regions[..0] == [];
          Listing(Returned(Some(Wrapped(DescribeFailed, drained.err.value))), [], [], [])
        else
          var snapshots := drained.items;
          var rest := ListRegions(flags, regions[1..]);
          var here := if |snapshots| > 0 then [Found(region.name, |snapshots|)] else [];
          DetailsOfAppend(flags, snapshots, rest.available);
          ListedStep(regions, rest, DetailsOf(flags, snapshots) + rest.details);
          Listing(rest.end, snapshots + rest.available, DetailsOf(flags, snapshots) + rest.details, here + rest.found)
  }

  /**
   * The traversal completes iff no region has a client error or a failing
   * page, and then it lists every region's snapshots in region order.
   */
  lemma {:induction false} ListRegionsIsReference(flags: Flags, regions: seq<RegionSnapshots>)
    ensures ListRegions(flags, regions).end == Returned(None) <==>
              forall k | 0 <= k < |regions| :: regions[k].clientErr.None? && FailureOf(regions[k].pages).None?
    ensures ListRegions(flags, regions).end == Returned(None) ==> ListRegions(flags, regions).available == SnapshotsOf(regions)
    decreases |regions|
  {
    if regions != [] {
      ListRegionsIsReference(flags, regions[1..]);
      TailIndex(regions);
      DrainIsFlatten(regions[0].pages);
    }
  }

  /** The command's result: the listing, and whether "No snapshots found" was printed. */
  datatype RunResult = RunResult(listing: Listing, noneFound: bool)

  /** `run`, with the first client's build error and DescribeRegions' answer given. */
  function Run(flags: Flags, build: Option<Error>, regions: Result<seq<RegionSnapshots>, Error>): (r: RunResult)
    ensures build.Some? ==> r.listing.end == Returned(Some(Plain(BuildFailed)))
    ensures build.None? && regions.Failure? ==> r.listing.end == Returned(Some(Plain(RegionsFailed)))
    ensures r.listing.end == Returned(None) ==>
              && regions.Success?
              && r.listing.available == SnapshotsOf(regions.value)
              && (r.noneFound <==> |SnapshotsOf(regions.value)| == 0)
    ensures r.noneFound ==> r.listing.end == Returned(None)
  {
    if build.Some? then RunResult(Listing(Returned(Some(Plain(BuildFailed))), [], [], []), false)
    else if regions.Failure? then RunResult(Listing(Returned(Some(Plain(RegionsFailed))), [], [], []), false)
    else
      var listing := ListRegions(flags, regions.value);
      ListRegionsIsReference(flags, regions.value);
      if listing.end == Returned(None) then RunResult(listing, |listing.available| == 0)
      else RunResult(listing, false)
  }

  /** A region whose second page fails aborts the run, even after the first page was read. */
  lemma SecondPageFailureAborts(flags: Flags, name: string, s: Snapshot, e: Error)
    ensures ListRegions(flags, [RegionSnapshots(name, None, More([s], Broken(e)))]).end
            == Returned(Some(Wrapped(DescribeFailed, e)))
  {
  }
}

=== FILE: paging.dfy ===
/**
 * The SDK's page loop as the commands use it (`DescribeSnapshotsPages`,
 * `DescribeInstancesPages`), and the ways a command can end.
 *
 * A page stream is what the service answers to successive page requests.
 * `More` is a page that carries a NextToken, `Last` one that does not, and
 * `Broken` a request that failed. Every callback in the commands
 * (`return !lastPage` and `return page.NextToken != nil`) asks for the next
 * page exactly when the current one is a `More`, so the loop reads pages until
 * the last one or the first failure.
 */
module Paging {
  import opened Wrappers
  import opened Errors

  datatype Pages<T> =
    | Last(items: seq<T>)
    | More(items: seq<T>, rest: Pages<T>)
    | Broken(err: Error)

  /** What the page loop leaves behind: the items appended so far, and the error if it failed. */
  datatype Drained<T> = Drained(items: seq<T>, err: Option<Error>)

  /** How a command run ends. */
  datatype Termination =
    | Returned(err: Option<Error>)   // `RunE`/`Run` returned, with this error
    | Exited(code: int)              // `os.Exit(code)`
    | Crashed                        // a nil pointer was dereferenced

  /** The callback decision of `return !lastPage`. */
  predicate ContinueUnlessLast<T>(page: Pages<T>)
    requires !page.Broken?
  {
    var lastPage := page.Last?;
    !lastPage
  }

  /** The callback decision of `return page.NextToken != nil`. */
  predicate ContinueWhileToken<T>(page: Pages<T>)
    requires !page.Broken?
  {
    var hasNextToken := page.More?;
    hasNextToken
  }

  /** The pages delivered to the callback, in order. */
  function Delivered<T>(p: Pages<T>): seq<seq<T>> {
    match p
    case Last(items) => [items]
    case More(items, rest) => [items] + Delivered(rest)
    case Broken(_) => []
  }

  /** The failure that ends the stream, if any. */
  function FailureOf<T>(p: Pages<T>): Option<Error> {
    match p
    case Last(_) => None
    case More(_, rest) => FailureOf(rest)
    case Broken(e) => Some(e)
  }

  function Flatten<T>(pages: seq<seq<T>>): seq<T> {
    if pages == [] then [] else pages[0] + Flatten(pages[1..])
  }

  lemma {:induction false} FlattenAppend<T>(a: seq<seq<T>>, b: seq<seq<T>>)
    ensures Flatten(a + b) == Flatten(a) + Flatten(b)
  {
    if a == [] {
      assert a + b == b;
    } else {
      assert (a + b)[1..] == a[1..] + b;
      FlattenAppend(a[1..], b);
    }
  }

  /**
   * The loop as the commands write it: the callback appends each page's
   * items to the accumulator `acc` and asks for more while the page is not
   * the last.
   */
  function Collect<T>(p: Pages<T>, acc: seq<T>): (r: Drained<T>)
    ensures r.err == FailureOf(p)
    ensures |acc| <= |r.items| && r.items[..|acc|] == acc
  {
    match p
    case Broken(e) => Drained(acc, Some(e))
    case Last(items) => Drained(acc + items, None)
    case More(items, rest) =>
      assert ContinueUnlessLast(p) && ContinueWhileToken(p);
      var r := Collect(rest, acc + items);
      assert r.items[..|acc|] == (r.items[..|acc + items|])[..|acc|];
      r
  }

  /** Draining from empty. */
  function Drain<T>(p: Pages<T>): Drained<T> {
    Collect(p, [])
  }

  /** The accumulated items are the delivered pages concatenated in order. */
  lemma {:induction false} CollectIsFlatten<T>(p: Pages<T>, acc: seq<T>)
    ensures Collect(p, acc).items == acc + Flatten(Delivered(p))
  {
    match p
    case Broken(_) =>
    case Last(items) =>
      assert Flatten([items]) == items + Flatten([]);
    case More(items, rest) =>
      CollectIsFlatten(rest, acc + items);
      assert Flatten([items] + Delivered(rest)) == items + Flatten(Delivered(rest));
  }

  lemma DrainIsFlatten<T>(p: Pages<T>)
    ensures Drain(p).items == Flatten(Delivered(p))
    ensures Drain(p).err == FailureOf(p)
  {
    CollectIsFlatten(p, []);
  }

  /** Three pages of two, two and one items drain to five items in page order. */
  lemma ThreePages(a: int, b: int, c: int, d: int, e: int)
    ensures Drain(More([a, b], More([c, d], Last([e])))) == Drained([a, b, c, d, e], None)
  {
    var p3 := Last([e]);
    var p2 := More([c, d], p3);
    var p := More([a, b], p2);
    DrainIsFlatten(p);
    assert Delivered(p2) == [[c, d]] + [[e]];
    assert Delivered(p) == [[a, b]] + Delivered(p2);
    FlattenAppend([[a, b]], Delivered(p2));
    FlattenAppend([[c, d]], [[e]]);
    assert Flatten([[e]]) == [e] + Flatten([]);
    assert Flatten([[c, d]]) == [c, d] + Flatten([]);
    assert Flatten([[a, b]]) == [a, b] + Flatten([]);
    assert FailureOf(p2) == None;
    assert Drain(p).items == [a, b] + ([c, d] + [e]);
  }
}

=== FILE: seqs.dfy ===
/** Small facts about sequences the traversal proofs share. */
module Seqs {

  lemma Associative<T>(p: seq<T>, q: seq<T>, r: seq<T>)
    ensures (p + q) + r == p + (q + r)
  {
  }

  /** Element `k` of `s` is element `k - 1` of its tail. */
  lemma TailIndex<T>(s: seq<T>)
    requires s != []
    ensures forall k | 1 <= k < |s| :: s[k] == s[1..][k - 1]
  {
  }

  /** A prefix of `c` stays a prefix once the same front is put on both. */
  lemma PrefixUnderFront<T>(a: seq<T>, b: seq<T>, c: seq<T>)
    requires |b| <= |c| && b == c[..|b|]
    ensures a + b == (a + c)[..|a| + |b|]
  {
  }
}

=== FILE: wrappers.dfy ===
/** Failure-compatible wrappers shared by every module of the model. */
module Wrappers {

  /** An optional value; `None` plays the part of a Go nil pointer or a nil `error`. */
  datatype Option<+T> = None | Some(value: T)

  /** A value or an error, for a Go `(T, error)` pair in which exactly one half is set. */
  datatype Result<+T, +E> = Success(value: T) | Failure(error: E)
}
